=== FILE: README.md ===
# TED tender search: a Dafny model

This project models the pure core of a tender search tool over the
European TED ("Tenders Electronic Daily") notice search API. It covers two
Python programs:

* the generic search engine in `ted_search_engine.py` (`IndustryTemplates`
  and `TEDSearchEngine`). It builds the query strategies, runs them, drops
  notices with a repeated `notice-identifier`, turns each raw notice into a
  scored tender record, applies the `active_only` and `min_value` filters,
  ranks by relevance score and keeps the first `max_results`;
* the pure parts of the specialised monitor in
  `SPIG-GMAB/spig_gmab_tender_monitor_clean.py`: the additive capped
  relevance score, the priority-ordered categoriser, the TED URL rule, the
  per-operator de-duplication, and the keep-if-score-at-least-10-then-sort
  step.

Raw notices are JSON objects, modelled as `Json.Fields`: a sequence of
(key, value) pairs in insertion order, where the first pair with a key is
the one `dict.get` finds. `Json.Value` has the cases None, bool, int,
string, list and dict. Python's truthiness, `str()` and `repr()` of these
values, substring `in`, ASCII `.lower()`, the stable `list.sort(...,
reverse=True)`, the slice `xs[:m]` (negative `m` included) and `int()`
truncation are written out explicitly.

The HTTP executor, the clock and `datetime.fromisoformat` are parameters:
`execute: QuerySpec -> seq<Fields>` returns the notices the API gives for
one query, before the search metadata is written into them, `now`
is the current instant, and `parse: string -> Option<int>` is the ISO
parser (`None` when it raises). In the monitor, `fetch: string -> seq<Fields>`
returns every notice the API calls of `search_by_operator` return for one
operator.

Modules, one per file: `Wrappers` (Option), `Seqs` (flatten, count, filter,
subsequences, distinctness), `Strings`, `Json`, `Templates`, `QueryBuilder`,
`Extract` (the field extractors), `Scoring` (weights, sub-scores, status),
`Ranking` (stable descending sort and slicing), `Engine` (de-duplication,
record processing, the whole search) and `Spig` (the monitor).

Where the code and the documentation of the engine disagree, the model
follows the code:

* the value sub-score with `min_value = 0` is 100 for every positive value;
* a string value is read as all of its digit runs concatenated after the
  commas are removed, so "12.50" reads as 1250;
* for a list whose first element is a dict, the multilingual-text reader
  falls back to the stringified dict rather than to its first language;
* the relevance score is capped at 100 but never clamped at 0.

## Model

| member | source | states |
|---|---|---|
| Templates.ListTemplates | ted_search_engine.py:178-181 | the template names, in declaration order, one per catalog entry |
| Templates.CatalogWellFormed | ted_search_engine.py:21-166 | every template has at least one keyword and at least one CPV code, and every CPV code has eight characters |
| Templates.LookupNames | ted_search_engine.py:169-176 | looking a name up in the catalog succeeds exactly when the name is one of the template names |
| Templates.LookupAt | ted_search_engine.py:169-176 | `dict.get` finds the entry carrying the name; with no repeated names, that is the one entry carrying it |
| Templates.CatalogNamesDistinct | ted_search_engine.py:21-166 | no template name appears twice in the catalog |
| Templates.GetKeywords | ted_search_engine.py:168-171 | an unknown template name gives the empty list; a known name gives exactly the keyword list of its catalog entry, which is non-empty |
| Templates.GetCpvCodes | ted_search_engine.py:173-176 | an unknown name gives the empty list; a known name gives exactly the CPV code list of its catalog entry, non-empty and of eight-character codes |
| QueryBuilder.Chunks | ted_search_engine.py:275 | groups of size `n`: ceil(len/n) groups, each non-empty and at most `n` long |
| QueryBuilder.ChunksFlatten | ted_search_engine.py:275 | concatenating the groups gives back the input list |
| QueryBuilder.ChunkIsSlice | ted_search_engine.py:275 | group `i` is the slice of the input that starts at `i*n` and is `n` long, the last group possibly shorter |
| QueryBuilder.GroupsPartitionInput | ted_search_engine.py:272-303 | there are ceil(k/3) keyword groups and ceil(c/5) CPV groups; they concatenate back to the keyword and CPV lists; keyword group `i` is `keywords[3i:3i+3]` and CPV group `i` is `cpv_codes[5i:5i+5]` |
| QueryBuilder.BuildSearchQueries | ted_search_engine.py:262-342 | one keyword query per keyword group, then one CPV query per CPV group, then, only when there are neither keywords nor CPV codes, one query per country in order; nothing else |
| QueryBuilder.BuildKinds | ted_search_engine.py:272-340 | query `i` carries the strategy tag and group of its position: keyword queries first, then `'cpv'` queries, then country queries with the one-element group `[country]` |
| QueryBuilder.StrategyOrder | ted_search_engine.py:272-340 | no CPV query comes before a keyword query, and nothing but country queries follows a country query |
| QueryBuilder.CountryFallback | ted_search_engine.py:328-340 | a country query exists exactly when there are no keywords, no CPV codes and at least one country; then query `i` is the country query of `countries[i]` |
| QueryBuilder.BuildClauses | ted_search_engine.py:268-339 | every query has both publication-date bounds; it has a value clause exactly when `min_value > 0`; keyword and CPV queries have the buyer-country OR-clause exactly when countries are given; country queries have none |
| QueryBuilder.QueryHasDateRange | ted_search_engine.py:268-298 | every rendered query string, joined with `' AND '`, contains `publication-date>=Y1-01-01` and `publication-date<=Y2-12-31` |
| QueryBuilder.FourKeywordsExample | ted_search_engine.py:272-299 | four keywords and one country give exactly two keyword queries, grouped `x,y,z` and `w`, both filtered on the country |
| Engine.DedupFrom | ted_search_engine.py:391-402 | the result is a subsequence of the input; every kept identifier is truthy and not already seen; no two kept notices share an identifier |
| Engine.RemoveDuplicates | ted_search_engine.py:391-402 | a subsequence of the input in which every identifier is truthy and no identifier repeats |
| Engine.DedupFromIds | ted_search_engine.py:391-402 | the identifiers kept are exactly the truthy identifiers of the input that were not already seen |
| Engine.DedupFromFirst | ted_search_engine.py:391-402 | every kept notice is the first notice of the input that carries its identifier |
| Engine.RemoveDuplicatesKeepsFirst | ted_search_engine.py:391-402 | every truthy identifier of the input survives, and the notice kept for it is its first occurrence |
| Engine.IdsOfIff | ted_search_engine.py:391-402 | an identifier is among those of a list exactly when some element carries it |
| Engine.ProcessResult | ted_search_engine.py:411-456 | a notice is dropped exactly when its title or buyer name is not text (the `.lower()` in the score raises); otherwise every field of the record comes from the notice: identifier, title and buyer name as `_safe_get_text` gives them, country, dates and notice type as `.get` gives them, the extracted CPV codes, value and TED URL, the classified status, document links exactly when requested and then the extracted ones, and the relevance score of exactly those title, buyer, codes, country and value (at most 100, at least 0 with non-negative weights); its search type and group are the `_search_type` and `_search_group` of the notice |
| Engine.TagSearch | ted_search_engine.py:369-372 | the tagged notice carries the query's type (`keyword`, `cpv` or `country`) under `_search_type` and its group under `_search_group`; every other key is unchanged |
| Engine.QueryResults | ted_search_engine.py:365-374 | one tagged notice per notice the query returned, in order |
| Engine.TaggedRecord | ted_search_engine.py:425-429 | the record of a tagged notice is built exactly when that of the untagged notice is, keeps its identifier, and records the type and group of the query that fetched it |
| Extract.SafeGetTextSameField | ted_search_engine.py:460-473 | two notices with the same value under a field give the same text for it |
| Engine.ProcessAndScore | ted_search_engine.py:404-458 | every record passes the filters, comes from some input notice, and scores at most 100 |
| Engine.ProcessAndScoreMembers | ted_search_engine.py:445-452 | a record is kept exactly when it passes the `active_only` and `min_value` filters and is the record of some input notice |
| Engine.KeepBuiltMembers | ted_search_engine.py:445-452 | the filter keeps exactly the built records that pass it |
| Engine.ProcessAndScoreDistinct | ted_search_engine.py:404-458 | records built from notices with distinct identifiers have distinct identifiers |
| Engine.SearchTenders | ted_search_engine.py:210-260 | the result has length min(`max_results`, candidates) for `max_results >= 0`; it holds each candidate at most as often as the candidates do; no left-out candidate outranks a kept one; for every score, the kept candidates with that score are the first ones of that score in candidate order; the result is sorted by non-increasing score, passes both filters, scores at most 100 and has distinct identifiers |
| Engine.CandidatesFacts | ted_search_engine.py:244-253 | the de-duplicated, processed candidates pass the filters, score at most 100 and have distinct identifiers |
| Extract.SafeGetText | ted_search_engine.py:460-473 | a missing or falsy field gives `''`; a dict gives its `'eng'` entry, else its first entry; a list whose head is a dict gives the head's `'eng'` entry, else `str()` of that dict; a list whose head is anything else gives `str()` of the head; an empty list gives `''`; any other value gives `str()` of it when truthy (so a string passes through) and `''` otherwise; a non-string result comes only from a dict or dict-headed list |
| Extract.SafeGetTextListHead | ted_search_engine.py:467-471 | a list headed by a scalar reads as `str()` of that scalar, which is what the scalar alone gives when truthy; a falsy scalar alone gives `''` |
| Extract.SafeGetTextOfString | ted_search_engine.py:460-473 | a plain string field is returned unchanged |
| Extract.SafeGetTextIdempotent | ted_search_engine.py:460-473 | extracting again from a record holding an extracted text gives the same text |
| Extract.SafeGetTextEnglishWins | ted_search_engine.py:463-466 | the result depends only on the field's value, and a language map with an `'eng'` entry yields it whatever other languages the map holds |
| Extract.CodesOf | ted_search_engine.py:480 | one code per entry with a truthy `cpv-code`, and none of them empty |
| Extract.CodesOfFilter | ted_search_engine.py:480 | code `i` is `str()` of the `cpv-code` of the `i`-th entry that has a truthy one, so the codes come in entry order |
| Extract.ExtractCpvCodes | ted_search_engine.py:475-485 | a list of dicts gives, in order, `str()` of each truthy `cpv-code`, none empty; a list with a non-dict element gives `[]`; a single dict gives `[str(code)]` exactly when its `cpv-code` is truthy, else `[]`; anything else gives `[]` |
| Extract.CpvCodesRoundTrip | ted_search_engine.py:475-485 | entries built from non-empty codes give back exactly those codes, in order |
| Extract.CodesOfEntries | ted_search_engine.py:480 | reading the codes of entries built from non-empty codes gives back the codes |
| Extract.RemoveCommas | ted_search_engine.py:495 | the result is the input with every comma deleted and every other character kept in order |
| Extract.RunsFlatten | ted_search_engine.py:495-496 | the runs found by `[\d,]+`, concatenated, are exactly the run characters of the string in order |
| Extract.RunCharsOfCommaFree | ted_search_engine.py:495-496 | after the commas are removed, the run characters are exactly the digits of the original string |
| Extract.ExtractValue | ted_search_engine.py:487-499 | an int passes through, a bool gives 0 or 1, a string gives the number formed by all its digits (0 if there are none), anything else gives 0 |
| Extract.ExtractValueRoundTrip | ted_search_engine.py:487-499 | the decimal text of a natural number reads back as that number |
| Extract.DecimalPointExample | ted_search_engine.py:493-496 | "12.50" reads as 1250, because every digit run is kept |
| Extract.FirstHref | ted_search_engine.py:505-509 | nothing is found exactly when no link is a dict with a truthy `href`; otherwise the result is the truthy `href` of the first such link |
| Extract.GenerateTedUrl | ted_search_engine.py:501-523 | the first truthy `href` among the dict links; failing that the publication-number URL when the number is truthy; failing that the notice URL when the identifier is truthy; otherwise `''`. The URL is non-empty exactly when one of the three is present |
| Extract.LinksOf | ted_search_engine.py:530-540 | one document link per dict with a truthy `href`, each with a non-empty URL and built from such a dict |
| Extract.LinksOfFilter | ted_search_engine.py:530-540 | document link `i` is built from the `i`-th dict with a truthy `href`, so the links come in entry order |
| Extract.ExtractDocumentLinks | ted_search_engine.py:525-544 | document link `i` is `{url, type, description}` of the `i`-th usable entry of `links`, in order, each with a non-empty URL; no links when `links` is not a list |
| Extract.UrlIsFirstDocumentLink | ted_search_engine.py:501-544 | when a notice has document links, its TED URL is the URL of the first one |
| Extract.FirstLinkAgrees | ted_search_engine.py:504-540 | the first `href` found is the URL of the first document link |
| Scoring.SetScoringCriteria | ted_search_engine.py:205-207 | the merged weights take every updated key from the update and every other key from the current weights, and have no other key |
| Scoring.ApplyUpdatesKeepsWeights | ted_search_engine.py:195-207 | no sequence of updates removes one of the four weights |
| Scoring.UpdatesKeepWeights | ted_search_engine.py:195-207 | starting from the defaults, all four weights stay present after any updates |
| Scoring.PartialUpdate | ted_search_engine.py:195-207 | updating only `keywordMatch` keeps the other defaults 30, 20 and 10 |
| Scoring.Percent | ted_search_engine.py:557-566 | `min(100, matches/total*100)` equals the uncapped share `matches*100/total`, lies in [0,100], and is 100 exactly when all match and 0 exactly when none does |
| Scoring.KeywordScore | ted_search_engine.py:555-560 | 0 without keywords; otherwise the share of keywords occurring case-insensitively in the title or buyer name, times 100; in [0,100], 100 exactly when every keyword occurs and 0 exactly when none does |
| Scoring.CpvScore | ted_search_engine.py:562-567 | 0 when either list is empty; otherwise the share of requested codes whose first four characters begin some notice code, times 100; in [0,100], 100 exactly when all match and 0 exactly when none does |
| Scoring.CpvPrefixExample | ted_search_engine.py:565 | a four-character prefix match counts ("42510000" matches "42515000") and a different prefix does not |
| Scoring.CountryScore | ted_search_engine.py:569-573 | 100 exactly when the record's country is one of the requested countries, else 0 |
| Scoring.ValueScore | ted_search_engine.py:575-585 | 0 below the minimum; at or above it, 100 above ten times the minimum, else 75 above five times it, else 50 above the minimum, else 0 (a value equal to a non-negative minimum gets 0) |
| Scoring.ValueScoreMonotone | ted_search_engine.py:575-585 | a larger value never gets a smaller value sub-score |
| Scoring.ValueScoreExamples | ted_search_engine.py:575-585 | with minimum 1000: 5001 gives 75, 5000 gives 50, 1000 and 999 give 0; with minimum 0 every positive value gives 100 and 0 gives 0 |
| Scoring.TruncToInt | ted_search_engine.py:587 | `int()` truncates toward zero |
| Scoring.RelevanceScore | ted_search_engine.py:546-587 | the score is at most 100, and at least 0 when every weight is non-negative |
| Scoring.DefaultWeightsUncapped | ted_search_engine.py:546-587 | with the default weights the weighted sum lies in [0,100], so the cap never applies and the score is the integer part of 0.4·keyword + 0.3·CPV + 0.2·country + 0.1·value |
| Scoring.PerfectMatchScoresHundred | ted_search_engine.py:546-587 | with the default weights, a record matching every keyword, every CPV code and the country, with a value above ten times the minimum, scores 100 |
| Scoring.NoMatchScoresZero | ted_search_engine.py:546-587 | with the default weights, a record matching nothing and with value 0 scores 0 when the minimum is 0 |
| Scoring.ReplaceZ | ted_search_engine.py:597 | the rewritten deadline has no `Z`, and a deadline without `Z` is unchanged |
| Scoring.ReplaceZAppend | ted_search_engine.py:597 | `replace` works character by character: it distributes over concatenation, turns `Z` into `+00:00` and keeps every other character |
| Scoring.DetermineStatus | ted_search_engine.py:589-606 | a falsy or non-text deadline is unknown; active exactly when the deadline parses and now is strictly before it; expired exactly when it parses and is not after now; unknown otherwise |
| Scoring.DeadlineNowIsExpired | ted_search_engine.py:600-603 | a deadline equal to now is expired |
| Ranking.SortDesc | ted_search_engine.py:256 | a permutation of the input, sorted by non-increasing key |
| Ranking.SortMembers | ted_search_engine.py:256 | sorting keeps exactly the elements of the input |
| Ranking.SortStable | ted_search_engine.py:256 | for every key value, the elements carrying it keep their input order |
| Ranking.SortDistinct | ted_search_engine.py:256 | sorting keeps distinct identifiers distinct |
| Ranking.Take | ted_search_engine.py:257 | Python's `xs[:m]`: a prefix of length min(m, len) for `m >= 0`, and all but the last `-m` elements for negative `m` |
| Ranking.Rank | ted_search_engine.py:256-257 | length min(m, len) for `m >= 0`; each input element appears at most as often as in the input; no left-out element ranks above a kept one; sorted by non-increasing key; for every key value, the kept elements carrying it are a prefix of the input's elements carrying it, in input order |
| Ranking.TakeFacts | ted_search_engine.py:257 | `xs[:m]` holds each element at most as often as `xs`, and for every key value its elements carrying that key are a prefix of those of `xs` |
| Ranking.RankDistinct | ted_search_engine.py:256-257 | ranking keeps distinct identifiers distinct |
| Ranking.KeepSorted | SPIG-GMAB/spig_gmab_tender_monitor_clean.py:333-342 | a permutation of the elements satisfying the predicate (same multiset), sorted by non-increasing key, with equal keys in input order |
| Ranking.MapKeepSorted | SPIG-GMAB/spig_gmab_tender_monitor_clean.py:311-342 | a permutation of the images satisfying the predicate (same multiset, so duplicates are kept as often as they occur), sorted by non-increasing key, with equal keys in input order |
| Strings.ContainsIff | ted_search_engine.py:558 | Python's substring test holds exactly when the needle occurs at some position |
| Strings.JoinContainsPart | ted_search_engine.py:298 | a joined string contains each of its parts |
| Strings.ParseNatToString | ted_search_engine.py:496 | `int()` of the decimal text of a natural number gives the number back |
| Json.Get | ted_search_engine.py:394 | `dict.get` finds a value exactly when the key is present, and the value found is one stored under that key |
| Json.PyStrEmpty | SPIG-GMAB/spig_gmab_tender_monitor_clean.py:224-226 | `str(v)` is empty exactly when `v` is the empty string |
| Spig.SpigScore | SPIG-GMAB/spig_gmab_tender_monitor_clean.py:221-284 | the score lies in [0,100]; it is 100 exactly when the uncapped sum reaches 100, and equals the sum below that |
| Spig.FirstMatchBonus | SPIG-GMAB/spig_gmab_tender_monitor_clean.py:229-233 | the keyword loop with `break` adds its points once if any keyword occurs, else nothing |
| Spig.ValidateSpigRelevance | SPIG-GMAB/spig_gmab_tender_monitor_clean.py:221-284 | the method with its seven `break` loops computes the capped score, a value in [0,100] |
| Spig.CoolingCountedOnce | SPIG-GMAB/spig_gmab_tender_monitor_clean.py:221-284 | a title that matches cooling keywords and nothing else scores exactly 30, however many cooling keywords it contains |
| Spig.Tier1OperatorSearchBonus | SPIG-GMAB/spig_gmab_tender_monitor_clean.py:276-282 | an operator search for a tier-1 operator scores at least 25 |
| Spig.FirstCategory | SPIG-GMAB/spig_gmab_tender_monitor_clean.py:376-397 | the result is the general label or one of the table's labels |
| Spig.FirstCategoryIff | SPIG-GMAB/spig_gmab_tender_monitor_clean.py:376-397 | with distinct labels, category `k` is chosen exactly when one of its terms occurs and no earlier category's term does |
| Spig.FirstCategoryGeneral | SPIG-GMAB/spig_gmab_tender_monitor_clean.py:396-397 | `'Industrial/General'` is chosen exactly when no category's term occurs |
| Spig.CategoryTableDistinct | SPIG-GMAB/spig_gmab_tender_monitor_clean.py:380-397 | the eight category labels are pairwise distinct and differ from the general label |
| Spig.CategorizeSpigType | SPIG-GMAB/spig_gmab_tender_monitor_clean.py:376-397 | the category is one of the nine labels |
| Spig.CategorizeIff | SPIG-GMAB/spig_gmab_tender_monitor_clean.py:376-397 | the lower-cased title gets category `k` exactly when it matches `k` and no earlier category, and the general label exactly when it matches none |
| Spig.ChillerIsCooling | SPIG-GMAB/spig_gmab_tender_monitor_clean.py:380-381 | a title containing "chiller" is "Cooling Systems", whatever else it contains |
| Spig.SpigTedUrl | SPIG-GMAB/spig_gmab_tender_monitor_clean.py:361-374 | a non-empty links list gives the first link's `href` (`''` if it has none or is not a dict); otherwise the publication-number URL when the number is truthy, else `''` |
| Spig.SpigUrlAgreesWithEngine | SPIG-GMAB/spig_gmab_tender_monitor_clean.py:361-374 | when the first link has an `href`, or there are no links and a publication number, the monitor and the engine give the same URL |
| Spig.NoNoticeIdFallback | SPIG-GMAB/spig_gmab_tender_monitor_clean.py:361-374 | without links and publication number the monitor gives `''` where the engine falls back to the notice identifier |
| Spig.FirstLinkWithoutHref | SPIG-GMAB/spig_gmab_tender_monitor_clean.py:364-366 | a first link without `href` gives `''` in the monitor, while the engine skips to the next link |
| Json.SetField | SPIG-GMAB/spig_gmab_tender_monitor_clean.py:186-187 | after `notice[key] = v` the key maps to `v` and every other key is unchanged |
| Spig.Tagged | SPIG-GMAB/spig_gmab_tender_monitor_clean.py:181-189 | one tagged notice per notice fetched for the operator, in order |
| Spig.Tag | SPIG-GMAB/spig_gmab_tender_monitor_clean.py:184-187 | a tagged notice carries the operator and `'operator_search'` and keeps its identifier |
| Spig.FillUniqueIsDedup | SPIG-GMAB/spig_gmab_tender_monitor_clean.py:199-206 | filling the `unique_notices` dict and taking its values adds the first notice of every new truthy identifier, in input order |
| Spig.SpigDedup | SPIG-GMAB/spig_gmab_tender_monitor_clean.py:199-206 | the dict-based de-duplication keeps exactly what the engine's set-based de-duplication keeps |
| Spig.SearchByOperator | SPIG-GMAB/spig_gmab_tender_monitor_clean.py:157-206 | a subsequence of the tagged fetched notices holding, for every truthy identifier fetched, exactly its first notice: every result carries the operator tag and a truthy identifier, no identifier repeats, and the identifiers are exactly the truthy ones fetched |
| Spig.DedupTaggedTags | SPIG-GMAB/spig_gmab_tender_monitor_clean.py:183-206 | every notice left after de-duplicating the tagged notices carries the operator name and the operator search type |
| Spig.DedupTaggedIds | SPIG-GMAB/spig_gmab_tender_monitor_clean.py:199-206 | de-duplicating the tagged notices keeps, in order, the first notice of each truthy identifier fetched and no other |
| Spig.SingleNoticeSearch | SPIG-GMAB/spig_gmab_tender_monitor_clean.py:184-206 | an operator search that finds one notice returns it tagged |
| Spig.CrossOperatorDuplicate | SPIG-GMAB/spig_gmab_tender_monitor_clean.py:208-219 | the same notice found for two operators appears twice in the tier results: there is no de-duplication across operators |
| Spig.SearchByOperatorTier | SPIG-GMAB/spig_gmab_tender_monitor_clean.py:208-219 | the tier results are the per-operator results concatenated in operator order, so the length is the sum of theirs; every result has a truthy identifier, the operator search type and the name of one of the tier's operators |
| Spig.TierStep | SPIG-GMAB/spig_gmab_tender_monitor_clean.py:214-216 | one more operator in front puts its results in front of the rest |
| Spig.RecordOf | SPIG-GMAB/spig_gmab_tender_monitor_clean.py:314-331 | the record holds the `tender_info` of the notice, its score is `validate_spig_relevance` of that info (so in [0,100]) and its category is `categorize_spig_type` of its title |
| Spig.SpigProcessAndScore | SPIG-GMAB/spig_gmab_tender_monitor_clean.py:305-345 | a permutation of the records of the raw notices that score at least 10 (each kept as often as it occurs), sorted by non-increasing score with ties in input order; every score lies in [10,100] |
| Spig.BandsPartition | SPIG-GMAB/spig_gmab_tender_monitor_clean.py:460-462 | on records scoring at least 10, the high, medium and low band counts add up to the number of records |

## Left out

- HTTP: the request part of `_execute_search` and of `search_by_operator` (two queries per operator, the 429 break, other status codes, exceptions) are the parameters `execute` and `fetch`; the tagging of the returned notices is modelled.
- Rate limiting (`asyncio.sleep`) is timing only. The `_search_timestamp` of each notice, copied into `found_timestamp`, comes from the clock and is left out; the search type and group are modelled.
- `datetime.fromisoformat`, time zones and `datetime.now` are the parameters `parse` and `now`. A deadline that fails to parse, or that is not a string, gives `'unknown'`, as the handler at the end of `_determine_status` does.
- Python floats: the sub-scores are exact reals. Float rounding before `int()` could differ from the exact value at integer boundaries. Float inputs to `_extract_value` are not modelled (the JSON values have no float case).
- `.lower()` is ASCII lower-casing only; `\d` is ASCII digits only; `repr()` of strings does not model escaping or the choice of quote character.
- Dict keys compare by JSON value: Python's `True == 1` hash collision and the `TypeError` of an unhashable identifier in `seen` are not modelled.
- `execute_operator_first_search` (concatenating the tier-1 and tier-2 results) is not modelled beyond `Spig.SearchByOperatorTier`; `save_results`, `main`, logging and printing are I/O.
- The monitor's `spig_keywords` list is never read by the scoring and is not modelled.
- `src/main.py` (actor input, `push_data`, the summary and its float average) and the test and debug scripts are host I/O with no assertions and are not part of this model.
- Scoring.RelevanceScore: for arbitrary weights states only the bounds, not the weighted sum; `DefaultWeightsUncapped` gives the exact sum for the default weights, and `PerfectMatchScoresHundred` and `NoMatchScoresZero` pin the two extremes.

=== FILE: engine.dfy ===
/** The search pipeline of `TEDSearchEngine`: collect the raw notices of
    every query, drop repeated notice identifiers, turn each notice into a
    scored record, apply the `active_only` and `min_value` filters, rank by
    score and keep the first `max_results`.

    The HTTP call behind each query is the parameter `execute`; the clock
    and `datetime.fromisoformat` are the parameters `now` and `parse`. */
module Engine {
  import opened Wrappers
  import opened Seqs
  import opened Json
  import opened QueryBuilder
  import opened Extract
  import opened Scoring
  import opened Ranking

  // ---------------------------------------------------------------------
  // De-duplication

  /** The first element of each new identifier, after the identifiers in
      `seen`, in input order; elements with a falsy identifier are dropped. */
  function DedupFrom<T>(rs: seq<T>, id: T -> Value, seen: set<Value>): (r: seq<T>)
    ensures IsSubsequence(r, rs)
    ensures forall i :: 0 <= i < |r| ==> Truthy(id(r[i])) && id(r[i]) !in seen
    ensures DistinctBy(r, id)
  {
    if |rs| == 0 then []
    else
      var x := id(rs[0]);
      if Truthy(x) && x !in seen then
        var rest := DedupFrom(rs[1..], id, seen + {x});
        DistinctByCons(rs[0], rest, id);
        var r := [rs[0]] + rest;
        assert r[0] == rs[0] && r[1..] == rest;
        r
      else
        var rest := DedupFrom(rs[1..], id, seen);
        assert |rest| > 0 ==> IsSubsequence(rest, rs[1..]);
        rest
  }

  /** `_remove_duplicates`: a subsequence of the input in which every
      identifier is truthy and no two notices share one. */
  function RemoveDuplicates(rs: seq<Fields>): (r: seq<Fields>)
    ensures IsSubsequence(r, rs)
    ensures forall i :: 0 <= i < |r| ==> Truthy(NoticeId(r[i]))
    ensures DistinctBy(r, NoticeId)
  {
    DedupFrom(rs, NoticeId, {})
  }

  /** Position `i` holds the first element with its identifier, and that
      identifier is truthy and not in `seen`. */
  ghost predicate FirstNew<T>(rs: seq<T>, id: T -> Value, i: int, seen: set<Value>)
    requires 0 <= i < |rs|
  {
    && Truthy(id(rs[i]))
    && id(rs[i]) !in seen
    && forall j :: 0 <= j < i ==> id(rs[j]) != id(rs[i])
  }

  /** The identifiers of the elements of `xs`. */
  function IdsOf<T>(xs: seq<T>, id: T -> Value): set<Value>
  {
    if |xs| == 0 then {} else {id(xs[0])} + IdsOf(xs[1..], id)
  }

  /** The truthy identifiers of the elements of `xs`. */
  function TruthyIds<T>(xs: seq<T>, id: T -> Value): set<Value>
  {
    if |xs| == 0 then {}
    else (if Truthy(id(xs[0])) then {id(xs[0])} else {}) + TruthyIds(xs[1..], id)
  }

  /** Lists whose elements carry the same identifiers, position by
      position, have the same truthy identifiers. */
  lemma {:induction false} TruthyIdsSameIds<T>(a: seq<T>, b: seq<T>, id: T -> Value)
    requires |a| == |b| && forall i :: 0 <= i < |a| ==> id(a[i]) == id(b[i])
    ensures TruthyIds(a, id) == TruthyIds(b, id)
  {
    if |a| > 0 {
      assert forall i :: 0 <= i < |a| - 1 ==> a[1..][i] == a[i + 1] && b[1..][i] == b[i + 1];
      TruthyIdsSameIds(a[1..], b[1..], id);
    }
  }

  /** An identifier is in `IdsOf` exactly when some element carries it. */
  lemma {:induction false} IdsOfIff<T>(xs: seq<T>, id: T -> Value, v: Value)
    ensures v in IdsOf(xs, id) <==> exists i :: 0 <= i < |xs| && id(xs[i]) == v
  {
    if |xs| > 0 {
      IdsOfIff(xs[1..], id, v);
      if v in IdsOf(xs[1..], id) {
        var i :| 0 <= i < |xs[1..]| && id(xs[1..][i]) == v;
        assert id(xs[i + 1]) == v;
      }
      if exists i :: 0 <= i < |xs| && id(xs[i]) == v {
        var i :| 0 <= i < |xs| && id(xs[i]) == v;
        if i > 0 {
          assert xs[1..][i - 1] == xs[i];
        }
      }
    }
  }

  /** Every element of `r` is the first occurrence in `rs` of a new
      identifier. */
  ghost predicate FirstsOnly<T>(r: seq<T>, rs: seq<T>, id: T -> Value, seen: set<Value>)
  {
    forall j :: 0 <= j < |r| ==> exists i :: 0 <= i < |rs| && r[j] == rs[i] && FirstNew(rs, id, i, seen)
  }

  /** The identifiers `seen` after the first element of `rs`. */
  function SeenAfter<T>(rs: seq<T>, id: T -> Value, seen: set<Value>): set<Value>
    requires |rs| > 0
  {
    var x := id(rs[0]);
    if Truthy(x) && x !in seen then seen + {x} else seen
  }

  /** One step of `DedupFrom`: the first element if it is new, then the
      rest. */
  lemma DedupFromStep<T>(rs: seq<T>, id: T -> Value, seen: set<Value>)
    requires |rs| > 0
    ensures DedupFrom(rs, id, seen) ==
              (if Truthy(id(rs[0])) && id(rs[0]) !in seen then [rs[0]] else []) +
              DedupFrom(rs[1..], id, SeenAfter(rs, id, seen))
  {
  }

  /** The identifiers kept are exactly the truthy identifiers of the input
      that are not in `seen`: every new identifier survives, and nothing
      else does. */
  lemma {:induction false} DedupFromIds<T>(rs: seq<T>, id: T -> Value, seen: set<Value>)
    ensures IdsOf(DedupFrom(rs, id, seen), id) == TruthyIds(rs, id) - seen
  {
    if |rs| > 0 {
      var r := DedupFrom(rs, id, seen);
      var seen' := SeenAfter(rs, id, seen);
      var rest := DedupFrom(rs[1..], id, seen');
      DedupFromIds(rs[1..], id, seen');
      DedupFromStep(rs, id, seen);
      if Truthy(id(rs[0])) && id(rs[0]) !in seen {
        assert r == [rs[0]] + rest && r[1..] == rest;
      } else {
        assert r == rest;
      }
    }
  }

  /** A first occurrence in the tail, shifted by one, is a first occurrence
      in the whole list. */
  lemma FirstNewShift<T>(rs: seq<T>, id: T -> Value, seen: set<Value>, i: int)
    requires 0 <= i < |rs| - 1
    requires FirstNew(rs[1..], id, i, SeenAfter(rs, id, seen))
    ensures FirstNew(rs, id, i + 1, seen)
  {
    assert rs[i + 1] == rs[1..][i];
    forall j | 0 <= j < i + 1
      ensures id(rs[j]) != id(rs[i + 1])
    {
      if j > 0 {
        assert rs[j] == rs[1..][j - 1];
      }
    }
  }

  /** Every element kept is the first occurrence of its identifier. */
  lemma {:induction false} DedupFromFirst<T>(rs: seq<T>, id: T -> Value, seen: set<Value>)
    ensures FirstsOnly(DedupFrom(rs, id, seen), rs, id, seen)
  {
    if |rs| > 0 {
      var r := DedupFrom(rs, id, seen);
      var seen' := SeenAfter(rs, id, seen);
      var rest := DedupFrom(rs[1..], id, seen');
      DedupFromFirst(rs[1..], id, seen');
      DedupFromStep(rs, id, seen);
      var head := if Truthy(id(rs[0])) && id(rs[0]) !in seen then [rs[0]] else [];
      forall j | 0 <= j < |r|
        ensures exists i :: 0 <= i < |rs| && r[j] == rs[i] && FirstNew(rs, id, i, seen)
      {
        if j < |head| {
          assert r[j] == rs[0] && FirstNew(rs, id, 0, seen);
        } else {
          assert r[j] == rest[j - |head|];
          var i :| 0 <= i < |rs[1..]| && rest[j - |head|] == rs[1..][i] && FirstNew(rs[1..], id, i, seen');
          FirstNewShift(rs, id, seen, i);
          assert rs[i + 1] == r[j];
        }
      }
    }
  }

  /** Every truthy identifier of the input survives, and the notice kept
      for it is the first one that carries it. */
  lemma RemoveDuplicatesKeepsFirst(rs: seq<Fields>)
    ensures IdsOf(RemoveDuplicates(rs), NoticeId) == TruthyIds(rs, NoticeId)
    ensures FirstsOnly(RemoveDuplicates(rs), rs, NoticeId, {})
  {
    DedupFromIds(rs, NoticeId, {});
    DedupFromFirst(rs, NoticeId, {});
  }

  // ---------------------------------------------------------------------
  // Processing one notice

  /** The arguments of `search_tenders`. */
  datatype SearchParams = SearchParams(
    keywords: seq<string>, cpvCodes: seq<string>, countries: seq<string>,
    yearFrom: int, yearTo: int, activeOnly: bool, minValue: int,
    maxResults: int, includeDocuments: bool)

  /** The `tender_info` record built for one notice. */
  datatype TenderRecord = TenderRecord(
    noticeId: Value, title: string, buyerName: string, country: Value,
    publicationDate: Value, deadlineDate: Value, cpvCodes: seq<string>,
    noticeType: Value, estimatedValueEur: int, tedUrl: Value,
    documentLinks: Option<seq<DocumentLink>>, relevanceScore: int, status: Status,
    searchType: Value, searchGroup: Value)

  function RecordId(t: TenderRecord): Value
  {
    t.noticeId
  }

  function ScoreOf(t: TenderRecord): int
  {
    t.relevanceScore
  }

  /** The record of one notice, or `None` when building it raises: the
      score lower-cases the title and the buyer name, so a text field that
      is not a string ends the `try` and the notice is skipped. */
  function ProcessResult(n: Fields, p: SearchParams, c: Criteria,
                         parse: string -> Option<int>, now: int): (r: Option<TenderRecord>)
    requires HasWeights(c)
    ensures r.None? <==> !SafeGetText(n, "notice-title").Str? || !SafeGetText(n, "buyer-name").Str?
    ensures r.Some? ==> r.value.noticeId == NoticeId(n)
    ensures r.Some? ==> r.value.relevanceScore <= 100
    ensures r.Some? && NonNegativeWeights(c) ==> r.value.relevanceScore >= 0
    ensures r.Some? ==> (r.value.documentLinks.Some? <==> p.includeDocuments)
    ensures r.Some? ==> r.value.estimatedValueEur == ExtractValue(n)
    ensures r.Some? ==> r.value.status == DetermineStatus(GetOr(n, "deadline-receipt", Str("")), parse, now)
    ensures r.Some? ==> r.value.title == SafeGetText(n, "notice-title").s &&
                        r.value.buyerName == SafeGetText(n, "buyer-name").s
    ensures r.Some? ==> r.value.country == GetOr(n, "buyer-country", Str("")) &&
                        r.value.publicationDate == GetOr(n, "publication-date", Str("")) &&
                        r.value.deadlineDate == GetOr(n, "deadline-receipt", Str("")) &&
                        r.value.noticeType == GetOr(n, "notice-type", Str(""))
    ensures r.Some? ==> r.value.cpvCodes == ExtractCpvCodes(n) && r.value.tedUrl == GenerateTedUrl(n)
    ensures r.Some? && p.includeDocuments ==> r.value.documentLinks == Some(ExtractDocumentLinks(n))
    ensures r.Some? ==>
              r.value.relevanceScore ==
                RelevanceScore(Scored(r.value.title, r.value.buyerName, r.value.cpvCodes,
                                      r.value.country, r.value.estimatedValueEur),
                               p.keywords, p.cpvCodes, p.countries, p.minValue, c)
    ensures r.Some? ==> r.value.searchType == GetOr(n, SearchTypeKey, Str("")) &&
                        r.value.searchGroup == GetOr(n, SearchGroupKey, List([]))
  {
    var title := SafeGetText(n, "notice-title");
    var buyer := SafeGetText(n, "buyer-name");
    if !title.Str? || !buyer.Str? then None
    else
      var cpv := ExtractCpvCodes(n);
      var value := ExtractValue(n);
      var country := GetOr(n, "buyer-country", Str(""));
      var deadline := GetOr(n, "deadline-receipt", Str(""));
      var score := RelevanceScore(Scored(title.s, buyer.s, cpv, country, value),
                                  p.keywords, p.cpvCodes, p.countries, p.minValue, c);
      Some(TenderRecord(
        NoticeId(n), title.s, buyer.s, country,
        GetOr(n, "publication-date", Str("")), deadline, cpv,
        GetOr(n, "notice-type", Str("")), value, GenerateTedUrl(n),
        if p.includeDocuments then Some(ExtractDocumentLinks(n)) else None,
        score, DetermineStatus(deadline, parse, now),
        GetOr(n, SearchTypeKey, Str("")), GetOr(n, SearchGroupKey, List([]))))
  }

  /** The two filters of `_process_and_score_results`. */
  predicate Keep(t: TenderRecord, p: SearchParams)
  {
    && (p.activeOnly ==> t.status == Active)
    && (p.minValue > 0 ==> t.estimatedValueEur >= p.minValue)
  }

  /** The record built from each notice (`None` where building it raises). */
  function Build(rs: seq<Fields>, p: SearchParams, c: Criteria,
                 parse: string -> Option<int>, now: int): (built: seq<Option<TenderRecord>>)
    requires HasWeights(c)
    ensures |built| == |rs|
    ensures forall i :: 0 <= i < |rs| ==> built[i] == ProcessResult(rs[i], p, c, parse, now)
  {
    seq(|rs|, i requires 0 <= i < |rs| => ProcessResult(rs[i], p, c, parse, now))
  }

  /** The built records that pass the filters, in order. */
  function KeepBuilt(built: seq<Option<TenderRecord>>, p: SearchParams): (r: seq<TenderRecord>)
    ensures |r| <= |built|
    ensures forall i :: 0 <= i < |r| ==> Keep(r[i], p) && Some(r[i]) in built
  {
    if |built| == 0 then []
    else
      var rest := KeepBuilt(built[1..], p);
      assert forall x :: x in built[1..] ==> x in built;
      var head := if built[0].Some? && Keep(built[0].value, p) then [built[0].value] else [];
      var r := head + rest;
      assert forall i :: |head| <= i < |r| ==> r[i] == rest[i - |head|];
      r
  }

  /** `_process_and_score_results`: the records that could be built and
      pass the filters, in input order, each one built from some notice. */
  function ProcessAndScore(rs: seq<Fields>, p: SearchParams, c: Criteria,
                           parse: string -> Option<int>, now: int): (r: seq<TenderRecord>)
    requires HasWeights(c)
    ensures |r| <= |rs|
    ensures forall i :: 0 <= i < |r| ==> Keep(r[i], p)
    ensures forall i :: 0 <= i < |r| ==>
              exists k :: 0 <= k < |rs| && ProcessResult(rs[k], p, c, parse, now) == Some(r[i])
    ensures forall i :: 0 <= i < |r| ==> r[i].relevanceScore <= 100
  {
    var built := Build(rs, p, c, parse, now);
    var r := KeepBuilt(built, p);
    forall i | 0 <= i < |r|
      ensures exists k :: 0 <= k < |rs| && ProcessResult(rs[k], p, c, parse, now) == Some(r[i])
      ensures r[i].relevanceScore <= 100
    {
      var k :| 0 <= k < |built| && built[k] == Some(r[i]);
      assert ProcessResult(rs[k], p, c, parse, now) == Some(r[i]);
    }
    r
  }

  lemma {:induction false} KeepBuiltMembers(built: seq<Option<TenderRecord>>, p: SearchParams, t: TenderRecord)
    ensures t in KeepBuilt(built, p) <==> Keep(t, p) && Some(t) in built
  {
    if |built| > 0 {
      KeepBuiltMembers(built[1..], p, t);
      assert built == [built[0]] + built[1..];
    }
  }

  /** A record is kept exactly when some notice builds it and it passes the
      filters. */
  lemma ProcessAndScoreMembers(rs: seq<Fields>, p: SearchParams, c: Criteria,
                               parse: string -> Option<int>, now: int, t: TenderRecord)
    requires HasWeights(c)
    ensures t in ProcessAndScore(rs, p, c, parse, now) <==>
              Keep(t, p) && exists k :: 0 <= k < |rs| && ProcessResult(rs[k], p, c, parse, now) == Some(t)
  {
    var built := Build(rs, p, c, parse, now);
    KeepBuiltMembers(built, p, t);
    if Some(t) in built {
      var k :| 0 <= k < |built| && built[k] == Some(t);
    }
    if exists k :: 0 <= k < |rs| && ProcessResult(rs[k], p, c, parse, now) == Some(t) {
      var k :| 0 <= k < |rs| && ProcessResult(rs[k], p, c, parse, now) == Some(t);
      assert built[k] == Some(t);
    }
  }

  /** No two built records share an identifier. */
  ghost predicate DistinctRecords(built: seq<Option<TenderRecord>>)
  {
    forall i, j :: 0 <= i < |built| && 0 <= j < |built| && i != j && built[i].Some? && built[j].Some? ==>
      built[i].value.noticeId != built[j].value.noticeId
  }

  lemma {:induction false} KeepBuiltDistinct(built: seq<Option<TenderRecord>>, p: SearchParams)
    requires DistinctRecords(built)
    ensures DistinctBy(KeepBuilt(built, p), RecordId)
  {
    if |built| > 0 {
      var tail := built[1..];
      assert forall i :: 0 <= i < |tail| ==> tail[i] == built[i + 1];
      assert DistinctRecords(tail);
      KeepBuiltDistinct(tail, p);
      var rest := KeepBuilt(tail, p);
      if built[0].Some? && Keep(built[0].value, p) {
        var t := built[0].value;
        forall j | 0 <= j < |rest|
          ensures RecordId(rest[j]) != RecordId(t)
        {
          var k :| 0 <= k < |tail| && tail[k] == Some(rest[j]);
          assert built[k + 1] == Some(rest[j]);
        }
        DistinctByCons(t, rest, RecordId);
      }
    }
  }

  /** Records built from notices with distinct identifiers have distinct
      identifiers. */
  lemma ProcessAndScoreDistinct(rs: seq<Fields>, p: SearchParams, c: Criteria,
                                parse: string -> Option<int>, now: int)
    requires HasWeights(c)
    requires DistinctBy(rs, NoticeId)
    ensures DistinctBy(ProcessAndScore(rs, p, c, parse, now), RecordId)
  {
    var built := Build(rs, p, c, parse, now);
    assert forall i :: 0 <= i < |built| && built[i].Some? ==> built[i].value.noticeId == NoticeId(rs[i]);
    KeepBuiltDistinct(built, p);
  }

  // ---------------------------------------------------------------------
  // The whole search

  const SearchTypeKey := "_search_type"
  const SearchGroupKey := "_search_group"

  /** The `type` string of a query: `'keyword'`, `'cpv'` or `'country'`. */
  function StrategyName(k: Strategy): string
  {
    match k
    case KeywordStrategy => "keyword"
    case CpvStrategy => "cpv"
    case CountryStrategy => "country"
  }

  /** The search metadata `_execute_search` writes into each notice it
      returns: the query's type and group. The timestamp is left out with
      the clock. */
  function TagSearch(n: Fields, spec: QuerySpec): (r: Fields)
    ensures Get(r, SearchTypeKey) == Some(Str(StrategyName(spec.kind)))
    ensures Get(r, SearchGroupKey) == Some(List(Map(spec.group, (g: string) => Str(g))))
    ensures forall k :: k != SearchTypeKey && k != SearchGroupKey ==> Get(r, k) == Get(n, k)
  {
    SetField(SetField(n, SearchTypeKey, Str(StrategyName(spec.kind))),
             SearchGroupKey, List(Map(spec.group, (g: string) => Str(g))))
  }

  /** What one query contributes: the notices `execute` fetched for it,
      each tagged with the query's metadata. */
  function QueryResults(spec: QuerySpec, execute: QuerySpec -> seq<Fields>): (r: seq<Fields>)
    ensures |r| == |execute(spec)|
    ensures forall i :: 0 <= i < |r| ==> r[i] == TagSearch(execute(spec)[i], spec)
  {
    seq(|execute(spec)|, i requires 0 <= i < |execute(spec)| => TagSearch(execute(spec)[i], spec))
  }

  /** All tagged notices, query by query, in query order (`all_results`).
      `execute` returns the notices the TED API gives for a query; a query
      that fails contributes nothing. */
  function Collect(specs: seq<QuerySpec>, execute: QuerySpec -> seq<Fields>): seq<Fields>
  {
    Flatten(seq(|specs|, i requires 0 <= i < |specs| => QueryResults(specs[i], execute)))
  }

  /** A record built from a tagged notice carries the type and group of the
      query that fetched it, and tagging changes nothing else the record is
      built from. */
  lemma TaggedRecord(n: Fields, spec: QuerySpec, p: SearchParams, c: Criteria,
                     parse: string -> Option<int>, now: int)
    requires HasWeights(c)
    ensures var r := ProcessResult(TagSearch(n, spec), p, c, parse, now);
            && (r.Some? <==> ProcessResult(n, p, c, parse, now).Some?)
            && (r.Some? ==> r.value.searchType == Str(StrategyName(spec.kind)) &&
                            r.value.searchGroup == List(Map(spec.group, (g: string) => Str(g))) &&
                            r.value.noticeId == NoticeId(n))
  {
    var t := TagSearch(n, spec);
    SafeGetTextSameField(t, n, "notice-title");
    SafeGetTextSameField(t, n, "buyer-name");
    assert Get(t, "notice-identifier") == Get(n, "notice-identifier");
  }

  /** The processed, filtered records before ranking. */
  function Candidates(p: SearchParams, c: Criteria, parse: string -> Option<int>, now: int,
                      execute: QuerySpec -> seq<Fields>): seq<TenderRecord>
    requires HasWeights(c)
  {
    var specs := BuildSearchQueries(p.keywords, p.cpvCodes, p.countries, p.yearFrom, p.yearTo, p.minValue);
    ProcessAndScore(RemoveDuplicates(Collect(specs, execute)), p, c, parse, now)
  }

  /** `search_tenders`: the candidates ranked by non-increasing score,
      ties in candidate order, cut to `max_results` with Python's slice. */
  function SearchTenders(p: SearchParams, c: Criteria, parse: string -> Option<int>, now: int,
                         execute: QuerySpec -> seq<Fields>): (r: seq<TenderRecord>)
    requires HasWeights(c)
    ensures var cands := Candidates(p, c, parse, now, execute);
            && (0 <= p.maxResults ==> |r| == (if p.maxResults <= |cands| then p.maxResults else |cands|))
            && (forall i :: 0 <= i < |r| ==> r[i] in cands)
            && (forall t :: t in cands && t !in r ==> forall i :: 0 <= i < |r| ==> ScoreOf(r[i]) >= ScoreOf(t))
            && multiset(r) <= multiset(cands)
            && (forall k :: Filter(r, HasKey(ScoreOf, k)) <= Filter(cands, HasKey(ScoreOf, k)))
    ensures p.activeOnly ==> forall i :: 0 <= i < |r| ==> r[i].status == Active
    ensures p.minValue > 0 ==> forall i :: 0 <= i < |r| ==> r[i].estimatedValueEur >= p.minValue
    ensures forall i :: 0 <= i < |r| ==> r[i].relevanceScore <= 100
    ensures SortedDesc(r, ScoreOf)
    ensures DistinctBy(r, RecordId)
  {
    var cands := Candidates(p, c, parse, now, execute);
    CandidatesFacts(p, c, parse, now, execute);
    RankDistinct(cands, ScoreOf, p.maxResults, RecordId);
    RankPreserves(cands, ScoreOf, p.maxResults, t => Keep(t, p) && t.relevanceScore <= 100);
    Rank(cands, ScoreOf, p.maxResults)
  }

  /** The candidates pass the filters, score at most 100 and have distinct
      identifiers. */
  lemma CandidatesFacts(p: SearchParams, c: Criteria, parse: string -> Option<int>, now: int,
                        execute: QuerySpec -> seq<Fields>)
    requires HasWeights(c)
    ensures var cands := Candidates(p, c, parse, now, execute);
            && (forall i :: 0 <= i < |cands| ==> Keep(cands[i], p) && cands[i].relevanceScore <= 100)
            && DistinctBy(cands, RecordId)
  {
    var specs := BuildSearchQueries(p.keywords, p.cpvCodes, p.countries, p.yearFrom, p.yearTo, p.minValue);
    var unique := RemoveDuplicates(Collect(specs, execute));
    ProcessAndScoreDistinct(unique, p, c, parse, now);
  }
}

=== FILE: extract.dfy ===
/** The field extractors of `TEDSearchEngine` (ted_search_engine.py): each
    turns one heterogeneous field of a raw notice into a flat value and
    returns a default instead of failing. A raw notice is the `dict` the
    search API returns, modelled as `Json.Fields`. */
module Extract {
  import opened Wrappers
  import opened Strings
  import opened Seqs
  import opened Json

  /** `result.get('notice-identifier', '')`: the identity of a notice. */
  function NoticeId(n: Fields): Value
  {
    GetOr(n, "notice-identifier", Str(""))
  }

  // ---------------------------------------------------------------------
  // Multilingual text

  /** `_safe_get_text(obj, field)`. A language map yields its `'eng'` entry,
      else the entry under its first key; a list yields its first element
      (the `'eng'` entry of a map, else the map printed with `str`); any
      other truthy value is printed with `str`; a falsy one gives `''`.
      The value picked out of a map is returned as it is, so it need not
      be a string. */
  function SafeGetText(obj: Fields, field: string): (r: Value)
    ensures Get(obj, field).None? ==> r == Str("")
    ensures !Truthy(GetOr(obj, field, Null)) ==> r == Str("")
    ensures GetOr(obj, field, Null).Str? ==> r == GetOr(obj, field, Null)
    ensures match GetOr(obj, field, Null)
            case Dict(lang) =>
              (Get(lang, "eng").Some? ==> r == Get(lang, "eng").value) &&
              (Get(lang, "eng").None? && |lang| > 0 ==> r == lang[0].1)
            case List(items) =>
              (|items| > 0 && items[0].Dict? ==>
                 r == GetOr(items[0].fields, "eng", Str(PyStr(items[0])))) &&
              (|items| > 0 && !items[0].Dict? ==> r == Str(PyStr(items[0]))) &&
              (|items| == 0 ==> r == Str(""))
            case v => r == (if Truthy(v) then Str(PyStr(v)) else Str(""))
    ensures !r.Str? ==> GetOr(obj, field, Null).Dict? ||
                        (GetOr(obj, field, Null).List? && GetOr(obj, field, Null).items[0].Dict?)
  {
    match GetOr(obj, field, Dict([]))
    case Dict(lang) =>
      var firstKey := if |lang| > 0 then lang[0].0 else "";
      GetOr(lang, "eng", GetOr(lang, firstKey, Str("")))
    case List(items) =>
      if |items| > 0 then
        (match items[0]
         case Dict(lang) => GetOr(lang, "eng", Str(PyStr(items[0])))
         case _ => Str(PyStr(items[0])))
      else Str("")
    case v => if Truthy(v) then Str(PyStr(v)) else Str("")
  }

  /** A list whose head is a truthy scalar reads like that scalar alone,
      as `str()` of it; a falsy scalar head is still printed, while the
      falsy scalar on its own gives `''`. */
  lemma SafeGetTextListHead(field: string, h: Value, t: seq<Value>)
    requires !h.Dict? && !h.List?
    ensures SafeGetText([(field, List([h] + t))], field) == Str(PyStr(h))
    ensures Truthy(h) ==> SafeGetText([(field, h)], field) == Str(PyStr(h))
    ensures !Truthy(h) ==> SafeGetText([(field, h)], field) == Str("")
  {
    assert ([h] + t)[0] == h;
  }

  /** The text of a field depends on that field alone. */
  lemma SafeGetTextSameField(a: Fields, b: Fields, field: string)
    requires Get(a, field) == Get(b, field)
    ensures SafeGetText(a, field) == SafeGetText(b, field)
  {
  }

  /** A plain-string field comes back unchanged, so a record whose title
      was already flattened is not altered by a second extraction. */
  lemma SafeGetTextOfString(obj: Fields, field: string, s: string)
    requires Get(obj, field) == Some(Str(s))
    ensures SafeGetText(obj, field) == Str(s)
  {
  }

  /** Extracting again from a record that holds the extracted text gives
      the same text: a flattened title stays as it is. */
  lemma SafeGetTextIdempotent(obj: Fields, field: string)
    ensures var r := SafeGetText(obj, field);
            r.Str? ==> SafeGetText([(field, r)], field) == r
  {
  }

  /** The text depends only on the field's own value, and a language map
      with an `'eng'` entry yields that entry whatever other languages it
      holds, and in whatever order. */
  lemma {:induction false} SafeGetTextEnglishWins(obj: Fields, field: string, lang: Fields, other: Fields)
    requires Get(obj, field) == Some(Dict(lang))
    requires Get(lang, "eng").Some? && Get(other, "eng") == Get(lang, "eng")
    ensures SafeGetText(obj, field) == SafeGetText([(field, Dict(other))], field) == Get(lang, "eng").value
  {
    assert Get([(field, Dict(other))], field) == Some(Dict(other));
  }

  // ---------------------------------------------------------------------
  // CPV codes

  /** A CPV entry whose `'cpv-code'` is truthy. */
  predicate HasCode(item: Value)
  {
    item.Dict? && Truthy(GetOr(item.fields, "cpv-code", Null))
  }

  /** The list comprehension over a list of CPV entries, all of them maps. */
  function CodesOf(items: seq<Value>): (r: seq<string>)
    requires forall i :: 0 <= i < |items| ==> items[i].Dict?
    ensures |r| == Count(items, HasCode)
    ensures forall i :: 0 <= i < |r| ==> r[i] != ""
  {
    if |items| == 0 then []
    else
      var code := GetOr(items[0].fields, "cpv-code", Null);
      PyStrEmpty(code);
      assert forall i :: 1 <= i < |items| ==> items[1..][i - 1] == items[i];
      (if Truthy(code) then [PyStr(code)] else []) + CodesOf(items[1..])
  }

  /** Code `i` comes from the `i`-th entry with a truthy `'cpv-code'`: the
      codes are those entries' codes, in entry order. */
  lemma {:induction false} CodesOfFilter(items: seq<Value>)
    requires forall i :: 0 <= i < |items| ==> items[i].Dict?
    ensures |CodesOf(items)| == |Filter(items, HasCode)|
    ensures forall i :: 0 <= i < |CodesOf(items)| ==>
              Filter(items, HasCode)[i].Dict? &&
              CodesOf(items)[i] == PyStr(GetOr(Filter(items, HasCode)[i].fields, "cpv-code", Null))
  {
    if |items| > 0 {
      assert forall i :: 1 <= i < |items| ==> items[1..][i - 1] == items[i];
      CodesOfFilter(items[1..]);
      var r := CodesOf(items);
      var rest := CodesOf(items[1..]);
      var kept := Filter(items, HasCode);
      forall i | 0 <= i < |r|
        ensures kept[i].Dict? && r[i] == PyStr(GetOr(kept[i].fields, "cpv-code", Null))
      {
        FilterIndex(items, HasCode, i);
        if !HasCode(items[0]) {
          assert r[i] == rest[i];
        } else if i > 0 {
          assert r[i] == rest[i - 1];
        }
      }
    }
  }

  /** `_extract_cpv_codes(result)`: the `'cpv-code'` of every entry that has
      a truthy one, in order, printed with `str`. A single map counts as a
      one-entry list; a list holding anything but maps raises inside the
      comprehension, and the handler returns `[]`. */
  function ExtractCpvCodes(n: Fields): (r: seq<string>)
    ensures forall i :: 0 <= i < |r| ==> r[i] != ""
    ensures match GetOr(n, "classification-cpv", Null)
            case List(items) =>
              ((forall i :: 0 <= i < |items| ==> items[i].Dict?) ==>
                 |r| == Count(items, HasCode) &&
                 forall i :: 0 <= i < |r| ==>
                   Filter(items, HasCode)[i].Dict? &&
                   r[i] == PyStr(GetOr(Filter(items, HasCode)[i].fields, "cpv-code", Null))) &&
              ((exists i :: 0 <= i < |items| && !items[i].Dict?) ==> r == [])
            case Dict(entry) =>
              |r| <= 1 && (|r| == 1 <==> HasCode(Dict(entry))) &&
              (|r| == 1 ==> r[0] == PyStr(GetOr(entry, "cpv-code", Null)))
            case _ => r == []
  {
    match GetOr(n, "classification-cpv", List([]))
    case List(items) =>
      if forall i :: 0 <= i < |items| ==> items[i].Dict? then CodesOfFilter(items); CodesOf(items) else []
    case Dict(entry) =>
      var code := GetOr(entry, "cpv-code", Null);
      PyStrEmpty(code);
      if Truthy(code) then [PyStr(code)] else []
    case _ => []
  }

  /** The entry `{'cpv-code': c}`. */
  function CpvEntry(code: string): Value
  {
    Dict([("cpv-code", Str(code))])
  }

  /** Codes written as a list of `{'cpv-code': ...}` entries are read back
      exactly, in order. */
  lemma {:induction false} CpvCodesRoundTrip(codes: seq<string>)
    requires forall i :: 0 <= i < |codes| ==> codes[i] != ""
    ensures var entries := seq(|codes|, i requires 0 <= i < |codes| => CpvEntry(codes[i]));
            ExtractCpvCodes([("classification-cpv", List(entries))]) == codes
  {
    var entries := seq(|codes|, i requires 0 <= i < |codes| => CpvEntry(codes[i]));
    CodesOfEntries(codes);
  }

  lemma {:induction false} CodesOfEntries(codes: seq<string>)
    requires forall i :: 0 <= i < |codes| ==> codes[i] != ""
    ensures var entries := seq(|codes|, i requires 0 <= i < |codes| => CpvEntry(codes[i]));
            CodesOf(entries) == codes
  {
    var entries := seq(|codes|, i requires 0 <= i < |codes| => CpvEntry(codes[i]));
    if |codes| > 0 {
      var tail := seq(|codes| - 1, i requires 0 <= i < |codes| - 1 => CpvEntry(codes[1..][i]));
      assert entries[1..] == tail;
      CodesOfEntries(codes[1..]);
    }
  }

  // ---------------------------------------------------------------------
  // Monetary value

  predicate NotComma(c: char)
  {
    c != ','
  }

  /** `s.replace(',', '')`: every other character, in order. */
  function RemoveCommas(s: string): (r: string)
    ensures forall i :: 0 <= i < |r| ==> r[i] != ','
    ensures r == Filter(s, NotComma)
  {
    if |s| == 0 then ""
    else (if s[0] == ',' then "" else [s[0]]) + RemoveCommas(s[1..])
  }

  /** A character matched by the pattern `[\d,]`. */
  predicate IsRunChar(c: char)
  {
    IsDigit(c) || c == ','
  }

  /** The characters of `s` matched by `[\d,]`, in order. */
  function RunCharsOf(s: string): string
  {
    if |s| == 0 then ""
    else (if IsRunChar(s[0]) then [s[0]] else "") + RunCharsOf(s[1..])
  }

  /** `re.findall(r'[\d,]+', s)` continued from a run `cur` already begun:
      the maximal runs of matching characters, left to right. */
  function RunsFrom(s: string, cur: string): (runs: seq<string>)
    ensures forall i :: 0 <= i < |runs| ==> |runs[i]| > 0
    decreases |s|
  {
    if |s| == 0 then (if |cur| > 0 then [cur] else [])
    else if IsRunChar(s[0]) then RunsFrom(s[1..], cur + [s[0]])
    else (if |cur| > 0 then [cur] else []) + RunsFrom(s[1..], "")
  }

  function FindRuns(s: string): seq<string>
  {
    RunsFrom(s, "")
  }

  /** Joining the runs gives every matching character, in order. */
  lemma {:induction false} RunsFlatten(s: string, cur: string)
    ensures Flatten(RunsFrom(s, cur)) == cur + RunCharsOf(s)
    decreases |s|
  {
    if |s| == 0 {
      if |cur| > 0 { assert Flatten([cur]) == cur + Flatten([cur][1..]); }
    } else if IsRunChar(s[0]) {
      RunsFlatten(s[1..], cur + [s[0]]);
    } else {
      RunsFlatten(s[1..], "");
      var rest := RunsFrom(s[1..], "");
      assert RunCharsOf(s) == RunCharsOf(s[1..]);
      if |cur| > 0 {
        assert ([cur] + rest)[1..] == rest;
        assert Flatten([cur] + rest) == cur + Flatten(rest);
      } else {
        assert cur + RunCharsOf(s) == RunCharsOf(s[1..]);
        assert [] + rest == rest;
      }
    }
  }

  /** Without commas, the matched characters are exactly the digits. */
  lemma {:induction false} RunCharsOfCommaFree(s: string)
    ensures RunCharsOf(RemoveCommas(s)) == DigitsOf(s)
  {
    if |s| > 0 {
      RunCharsOfCommaFree(s[1..]);
      RunCharsAppend(if s[0] == ',' then "" else [s[0]], RemoveCommas(s[1..]));
    }
  }

  lemma {:induction false} RunCharsAppend(a: string, b: string)
    ensures RunCharsOf(a + b) == RunCharsOf(a) + RunCharsOf(b)
  {
    if |a| > 0 {
      assert (a + b)[1..] == a[1..] + b;
      RunCharsAppend(a[1..], b);
    } else {
      assert a + b == b;
    }
  }

  /** `_extract_value(result)`: an integer passes through (a boolean counts
      as `0`/`1`); a string becomes the number spelled by ALL of its digits
      once commas are removed (`'1.5 million'` gives `15`), or `0` without
      digits; anything else, and a missing field, gives `0`. */
  function ExtractValue(n: Fields): (r: int)
    ensures match GetOr(n, "value-eur", Int(0))
            case Int(i) => r == i
            case Bool(b) => r == (if b then 1 else 0)
            case Str(s) => r == ParseDigits(DigitsOf(s))
            case _ => r == 0
  {
    match GetOr(n, "value-eur", Int(0))
    case Int(i) => i
    case Bool(b) => if b then 1 else 0
    case Str(s) =>
      var runs := FindRuns(RemoveCommas(s));
      RunsFlatten(RemoveCommas(s), "");
      RunCharsOfCommaFree(s);
      assert Flatten(runs) == DigitsOf(s) by {
        assert "" + RunCharsOf(RemoveCommas(s)) == RunCharsOf(RemoveCommas(s));
      }
      if |runs| > 0 then ParseDigits(Flatten(runs)) else 0
    case _ => 0
  }

  /** A non-negative amount written in decimal, with or without thousands
      separators, is read back exactly. */
  lemma ExtractValueRoundTrip(amount: nat)
    ensures ExtractValue([("value-eur", Str(NatToString(amount)))]) == amount
  {
    DigitsOfDigits(NatToString(amount));
    ParseNatToString(amount);
  }

  lemma {:induction false} DigitsOfDigits(s: string)
    requires forall i :: 0 <= i < |s| ==> IsDigit(s[i])
    ensures DigitsOf(s) == s
  {
    if |s| > 0 {
      DigitsOfDigits(s[1..]);
    }
  }

  /** A decimal point does not stop the scan: `'12.50'` is read as `1250`. */
  lemma DecimalPointExample()
    ensures ExtractValue([("value-eur", Str("12.50"))]) == 1250
  {
    var s := "12.50";
    assert DigitsOf(s) == "1250" by {
      assert s[1..] == "2.50";
      assert s[2..] == ".50";
      assert s[3..] == "50";
      assert s[4..] == "0";
      assert s[5..] == "";
    }
    var d := "1250";
    assert d[..3] == "125" && d[..2] == "12" && d[..1] == "1";
    assert "125"[..2] == "12" && "12"[..1] == "1" && "1"[..0] == "";
  }

  // ---------------------------------------------------------------------
  // Source URL and document links

  /** A link entry with a truthy `'href'`. */
  predicate IsHrefLink(link: Value)
  {
    link.Dict? && Truthy(GetOr(link.fields, "href", Null))
  }

  function HrefOf(link: Value): Value
    requires link.Dict?
  {
    GetOr(link.fields, "href", Str(""))
  }

  /** The `'href'` of the first link entry that has a truthy one. */
  function FirstHref(links: seq<Value>): (r: Option<Value>)
    ensures r.None? <==> forall i :: 0 <= i < |links| ==> !IsHrefLink(links[i])
    ensures r.Some? ==> exists i :: 0 <= i < |links| && IsHrefLink(links[i]) && r.value == HrefOf(links[i]) &&
                                    forall j :: 0 <= j < i ==> !IsHrefLink(links[j])
    ensures r.Some? ==> Truthy(r.value)
  {
    if |links| == 0 then None
    else if IsHrefLink(links[0]) then Some(HrefOf(links[0]))
    else
      var r := FirstHref(links[1..]);
      assert forall i :: 1 <= i < |links| ==> links[1..][i - 1] == links[i];
      r
  }

  /** The `'links'` list of a notice, or `[]` when it is missing or not a list. */
  function LinkList(n: Fields): seq<Value>
  {
    match GetOr(n, "links", List([]))
    case List(items) => items
    case _ => []
  }

  function PublicationUrl(pubNumber: Value): string
  {
    "https://ted.europa.eu/udl?uri=TED:NOTICE:" + PyStr(pubNumber) + ":TEXT:EN:HTML"
  }

  function NoticeUrl(noticeId: Value): string
  {
    "https://ted.europa.eu/notices/" + PyStr(noticeId)
  }

  /** `_generate_ted_url(result)`: the first link's truthy `'href'`; else the
      publication-number URL; else the notice-id URL; else `''`. The result
      is empty exactly when none of the three sources is present. */
  function GenerateTedUrl(n: Fields): (r: Value)
    ensures Truthy(r) <==> (exists i :: 0 <= i < |LinkList(n)| && IsHrefLink(LinkList(n)[i]))
                           || Truthy(GetOr(n, "publication-number", Null))
                           || Truthy(NoticeId(n))
    ensures (exists i :: 0 <= i < |LinkList(n)| && IsHrefLink(LinkList(n)[i])) ==>
              r == FirstHref(LinkList(n)).value
    ensures (forall i :: 0 <= i < |LinkList(n)| ==> !IsHrefLink(LinkList(n)[i])) &&
            Truthy(GetOr(n, "publication-number", Null)) ==>
              r == Str(PublicationUrl(GetOr(n, "publication-number", Null)))
    ensures (forall i :: 0 <= i < |LinkList(n)| ==> !IsHrefLink(LinkList(n)[i])) &&
            !Truthy(GetOr(n, "publication-number", Null)) && Truthy(NoticeId(n)) ==>
              r == Str(NoticeUrl(NoticeId(n)))
    ensures (forall i :: 0 <= i < |LinkList(n)| ==> !IsHrefLink(LinkList(n)[i])) &&
            !Truthy(GetOr(n, "publication-number", Null)) && !Truthy(NoticeId(n)) ==>
              r == Str("")
  {
    match FirstHref(LinkList(n))
    case Some(href) => href
    case None =>
      var pub := GetOr(n, "publication-number", Str(""));
      if Truthy(pub) then Str(PublicationUrl(pub))
      else
        var id := NoticeId(n);
        if Truthy(id) then Str(NoticeUrl(id)) else Str("")
  }

  /** One entry of `document_links`. */
  datatype DocumentLink = DocumentLink(url: Value, kind: Value, description: Value)

  function ToDocumentLink(link: Value): DocumentLink
    requires link.Dict?
  {
    DocumentLink(HrefOf(link), GetOr(link.fields, "type", Str("document")),
                 GetOr(link.fields, "description", Str("")))
  }

  function LinksOf(links: seq<Value>): (r: seq<DocumentLink>)
    ensures |r| == Count(links, IsHrefLink)
    ensures forall i :: 0 <= i < |r| ==> Truthy(r[i].url)
    ensures forall d :: d in r ==> exists i :: 0 <= i < |links| && IsHrefLink(links[i]) && d == ToDocumentLink(links[i])
  {
    if |links| == 0 then []
    else
      var rest := LinksOf(links[1..]);
      assert forall i :: 1 <= i < |links| ==> links[1..][i - 1] == links[i];
      if IsHrefLink(links[0]) then [ToDocumentLink(links[0])] + rest else rest
  }

  /** Document link `i` is built from the `i`-th link entry with a truthy
      `'href'`: the links keep their order and each comes from its own
      entry. */
  lemma {:induction false} LinksOfFilter(links: seq<Value>)
    ensures |LinksOf(links)| == |Filter(links, IsHrefLink)|
    ensures forall i :: 0 <= i < |LinksOf(links)| ==>
              Filter(links, IsHrefLink)[i].Dict? && LinksOf(links)[i] == ToDocumentLink(Filter(links, IsHrefLink)[i])
  {
    if |links| > 0 {
      LinksOfFilter(links[1..]);
      var r := LinksOf(links);
      var rest := LinksOf(links[1..]);
      var kept := Filter(links, IsHrefLink);
      forall i | 0 <= i < |r|
        ensures kept[i].Dict? && r[i] == ToDocumentLink(kept[i])
      {
        FilterIndex(links, IsHrefLink, i);
        if !IsHrefLink(links[0]) {
          assert r[i] == rest[i];
        } else if i > 0 {
          assert r[i] == rest[i - 1];
        }
      }
    }
  }

  /** `_extract_document_links(result)`: every link entry with a truthy
      `'href'`, in order, as `{url, type (default 'document'), description}`;
      entries that are not maps are skipped. */
  function ExtractDocumentLinks(n: Fields): (r: seq<DocumentLink>)
    ensures |r| == Count(LinkList(n), IsHrefLink)
    ensures forall i :: 0 <= i < |r| ==> Truthy(r[i].url)
    ensures forall d :: d in r ==> exists i :: 0 <= i < |LinkList(n)| && IsHrefLink(LinkList(n)[i]) &&
                                               d == ToDocumentLink(LinkList(n)[i])
    ensures forall i :: 0 <= i < |r| ==>
              Filter(LinkList(n), IsHrefLink)[i].Dict? &&
              r[i] == ToDocumentLink(Filter(LinkList(n), IsHrefLink)[i])
  {
    LinksOfFilter(LinkList(n));
    LinksOf(LinkList(n))
  }

  /** The TED URL and the document links agree: when a notice has any
      document link, its source URL is the first document link's URL. */
  lemma {:induction false} UrlIsFirstDocumentLink(n: Fields)
    requires |ExtractDocumentLinks(n)| > 0
    ensures GenerateTedUrl(n) == ExtractDocumentLinks(n)[0].url
  {
    FirstLinkAgrees(LinkList(n));
  }

  lemma {:induction false} FirstLinkAgrees(links: seq<Value>)
    requires |LinksOf(links)| > 0
    ensures FirstHref(links) == Some(LinksOf(links)[0].url)
  {
    if !IsHrefLink(links[0]) {
      FirstLinkAgrees(links[1..]);
    }
  }
}

=== FILE: json.dfy ===
/** The decoded JSON values the search API hands back, as Python sees them
    (`None`, `bool`, `int`, `str`, `list`, `dict`), together with the three
    Python operations the extractors apply to them: `dict.get`, truthiness
    (`if value:`) and `str(value)`. */
module Json {
  import opened Wrappers
  import opened Strings

  datatype Value =
    | Null
    | Bool(b: bool)
    | Int(i: int)
    | Str(s: string)
    | List(items: seq<Value>)
    | Dict(fields: seq<(string, Value)>)

  /** The entries of a `dict`, in insertion order. A raw notice is one. */
  type Fields = seq<(string, Value)>

  /** `d.get(key)`: the value stored under `key`, if any. */
  function Get(fields: Fields, key: string): (r: Option<Value>)
    ensures r.Some? <==> exists i :: 0 <= i < |fields| && fields[i].0 == key
    ensures r.Some? ==> (key, r.value) in fields
  {
    if |fields| == 0 then None
    else if fields[0].0 == key then Some(fields[0].1)
    else
      var r := Get(fields[1..], key);
      assert forall i :: 1 <= i < |fields| ==> fields[i] == fields[1..][i - 1];
      r
  }

  /** `d.get(key, default)`. */
  function GetOr(fields: Fields, key: string, default: Value): Value
  {
    Get(fields, key).GetOr(default)
  }

  /** `d[key] = v` on a map: replaces the value of an existing key in place,
      or appends a new entry. */
  function SetField(fields: Fields, key: string, v: Value): (r: Fields)
    ensures Get(r, key) == Some(v)
    ensures forall k :: k != key ==> Get(r, k) == Get(fields, k)
  {
    if |fields| == 0 then [(key, v)]
    else if fields[0].0 == key then [(key, v)] + fields[1..]
    else
      var rest := SetField(fields[1..], key, v);
      var r := [fields[0]] + rest;
      assert r[1..] == rest;
      assert fields == [fields[0]] + fields[1..];
      r
  }

  /** Python truthiness: `None`, `False`, `0` and empty containers are false. */
  predicate Truthy(v: Value)
  {
    match v
    case Null => false
    case Bool(b) => b
    case Int(i) => i != 0
    case Str(s) => |s| > 0
    case List(items) => |items| > 0
    case Dict(fields) => |fields| > 0
  }

  /** Python's `repr(value)`; strings are quoted with `'` (escaping of quotes
      and control characters is not modelled). */
  function Repr(v: Value): string
    decreases v, 1
  {
    match v
    case Str(s) => Quote(s)
    case _ => PyStr(v)
  }

  function Quote(s: string): string
  {
    "'" + s + "'"
  }

  /** Python's `str(value)` (also what an f-string substitutes). */
  function PyStr(v: Value): string
    decreases v, 0
  {
    match v
    case Null => "None"
    case Bool(b) => if b then "True" else "False"
    case Int(i) => IntToString(i)
    case Str(s) => s
    case List(items) =>
      "[" + Join(", ", seq(|items|, k requires 0 <= k < |items| => Repr(items[k]))) + "]"
    case Dict(fields) =>
      "{" + Join(", ", seq(|fields|, k requires 0 <= k < |fields| =>
                              Quote(fields[k].0) + ": " + Repr(fields[k].1))) + "}"
  }

  /** `str(value)` is empty exactly for the empty string, so a truthy value
      never stringifies to `''`. */
  lemma PyStrEmpty(v: Value)
    ensures PyStr(v) == "" <==> v == Str("")
  {
    match v
    case Int(i) =>
      if i < 0 { assert |PyStr(v)| > 0; }
    case _ =>
  }
}

=== FILE: query_builder.dfy ===
/** The query-strategy builder (`TEDSearchEngine._build_search_queries`):
    keywords are searched three at a time, CPV codes five at a time, and
    only when there are neither does the builder fall back to one query per
    country. Every query is a conjunction of clauses rendered in the search
    API's expert-query syntax. */
module QueryBuilder {
  import opened Strings
  import opened Seqs

  /** The `'type'` tag of a query: `'keyword'`, `'cpv'` or `'country'`. */
  datatype Strategy = KeywordStrategy | CpvStrategy | CountryStrategy
  {
    function Tag(): string
    {
      match this
      case KeywordStrategy => "keyword"
      case CpvStrategy => "cpv"
      case CountryStrategy => "country"
    }
  }

  /** One conjunct of a query, before rendering. */
  datatype Clause =
    | TitleAny(keywords: seq<string>)
    | CpvAny(codes: seq<string>)
    | CountryAny(countries: seq<string>)
    | CountryIs(country: string)
    | PublishedFrom(year: int)
    | PublishedTo(year: int)
    | MinValue(amount: int)

  /** `field="v1" OR field="v2" ...`, wrapped in parentheses. */
  function AnyOf(field: string, values: seq<string>): string
  {
    "(" + Join(" OR ", seq(|values|, i requires 0 <= i < |values| => field + "=\"" + values[i] + "\"")) + ")"
  }

  function Render(c: Clause): string
  {
    match c
    case TitleAny(ks) => AnyOf("notice-title", ks)
    case CpvAny(cs) => AnyOf("classification-cpv", cs)
    case CountryAny(cs) => AnyOf("buyer-country", cs)
    case CountryIs(country) => "buyer-country=\"" + country + "\""
    case PublishedFrom(y) => "publication-date>=" + IntToString(y) + "-01-01"
    case PublishedTo(y) => "publication-date<=" + IntToString(y) + "-12-31"
    case MinValue(v) => "value-eur>=" + IntToString(v)
  }

  /** A query specification: `{'query': ..., 'type': ..., 'group': ...}`. */
  datatype QuerySpec = QuerySpec(clauses: seq<Clause>, kind: Strategy, group: seq<string>)
  {
    /** The `'query'` string: the rendered clauses joined with ` AND `. */
    function Query(): string
    {
      Join(" AND ", seq(|clauses|, i requires 0 <= i < |clauses| => Render(clauses[i])))
    }
  }

  const KeywordGroupSize: nat := 3
  const CpvGroupSize: nat := 5

  /** Number of groups of size `n` needed for `m` elements: ceil(m / n). */
  function CeilDiv(m: nat, n: nat): nat
    requires n > 0
    decreases m
  {
    if m == 0 then 0 else if m <= n then 1 else 1 + CeilDiv(m - n, n)
  }

  lemma {:induction false} CeilDiv3(m: nat)
    ensures CeilDiv(m, 3) == (m + 2) / 3
    decreases m
  {
    if m > 3 { CeilDiv3(m - 3); }
  }

  lemma {:induction false} CeilDiv5(m: nat)
    ensures CeilDiv(m, 5) == (m + 4) / 5
    decreases m
  {
    if m > 5 { CeilDiv5(m - 5); }
  }

  /** `[xs[i:i+n] for i in range(0, len(xs), n)]`. */
  function Chunks<T>(xs: seq<T>, n: nat): (groups: seq<seq<T>>)
    requires n > 0
    ensures |groups| == CeilDiv(|xs|, n)
    ensures forall i :: 0 <= i < |groups| ==> 0 < |groups[i]| <= n
    decreases |xs|
  {
    if |xs| == 0 then []
    else if |xs| <= n then [xs]
    else [xs[..n]] + Chunks(xs[n..], n)
  }

  /** Concatenating the groups gives back the input. */
  lemma {:induction false} ChunksFlatten<T>(xs: seq<T>, n: nat)
    requires n > 0
    ensures Flatten(Chunks(xs, n)) == xs
    decreases |xs|
  {
    if |xs| == 0 {
    } else if |xs| <= n {
      assert Flatten([xs]) == xs + Flatten([xs][1..]);
    } else {
      var rest := Chunks(xs[n..], n);
      ChunksFlatten(xs[n..], n);
      assert ([xs[..n]] + rest)[1..] == rest;
      assert xs[..n] + xs[n..] == xs;
    }
  }

  function Min(a: int, b: int): int
  {
    if a <= b then a else b
  }

  /** Start of group `i` among groups of size `n`: `i * n`. */
  function Offset(i: nat, n: nat): nat
  {
    if i == 0 then 0 else Offset(i - 1, n) + n
  }

  lemma {:induction false} Offset3(i: nat)
    ensures Offset(i, 3) == 3 * i
  {
    if i > 0 { Offset3(i - 1); }
  }

  lemma {:induction false} Offset5(i: nat)
    ensures Offset(i, 5) == 5 * i
  {
    if i > 0 { Offset5(i - 1); }
  }

  lemma SliceOfDrop<T>(xs: seq<T>, n: nat, lo: nat, hi: nat)
    requires n <= |xs| && lo <= hi <= |xs| - n
    ensures xs[n..][lo..hi] == xs[lo + n .. hi + n]
  {
  }

  /** Group `i` is the slice of `xs` starting at `i * n`: the groups are
      consecutive slices of size `n`, the last one possibly shorter. */
  lemma {:induction false} ChunkIsSlice<T>(xs: seq<T>, n: nat, i: nat)
    requires n > 0
    requires i < |Chunks(xs, n)|
    ensures Offset(i, n) < |xs|
    ensures Chunks(xs, n)[i] == xs[Offset(i, n) .. Min(Offset(i, n) + n, |xs|)]
    decreases |xs|
  {
    if |xs| <= n {
      assert |xs| > 0;
      assert Chunks(xs, n) == [xs];
    } else if i == 0 {
      assert Chunks(xs, n) == [xs[..n]] + Chunks(xs[n..], n);
    } else {
      var rest := xs[n..];
      var groups := Chunks(rest, n);
      assert Chunks(xs, n) == [xs[..n]] + groups;
      assert i - 1 < |groups|;
      assert Chunks(xs, n)[i] == groups[i - 1];
      ChunkIsSlice(rest, n, i - 1);
      var lo0 := Offset(i - 1, n);
      var hi0 := Min(lo0 + n, |rest|);
      assert Offset(i, n) == lo0 + n;
      assert hi0 + n == Min(Offset(i, n) + n, |xs|);
      SliceOfDrop(xs, n, lo0, hi0);
    }
  }

  function CountryClauses(countries: seq<string>): seq<Clause>
  {
    if |countries| > 0 then [CountryAny(countries)] else []
  }

  function DateValueClauses(yearFrom: int, yearTo: int, minValue: int): seq<Clause>
  {
    [PublishedFrom(yearFrom), PublishedTo(yearTo)] + (if minValue > 0 then [MinValue(minValue)] else [])
  }

  function KeywordSpec(group: seq<string>, countries: seq<string>, yearFrom: int, yearTo: int, minValue: int): QuerySpec
  {
    QuerySpec([TitleAny(group)] + CountryClauses(countries) + DateValueClauses(yearFrom, yearTo, minValue),
              KeywordStrategy, group)
  }

  function CpvSpec(group: seq<string>, countries: seq<string>, yearFrom: int, yearTo: int, minValue: int): QuerySpec
  {
    QuerySpec([CpvAny(group)] + CountryClauses(countries) + DateValueClauses(yearFrom, yearTo, minValue),
              CpvStrategy, group)
  }

  function CountrySpec(country: string, yearFrom: int, yearTo: int, minValue: int): QuerySpec
  {
    QuerySpec([CountryIs(country)] + DateValueClauses(yearFrom, yearTo, minValue),
              CountryStrategy, [country])
  }

  function KeywordGroups(keywords: seq<string>): seq<seq<string>>
  {
    Chunks(keywords, KeywordGroupSize)
  }

  function CpvGroups(cpvCodes: seq<string>): seq<seq<string>>
  {
    Chunks(cpvCodes, CpvGroupSize)
  }

  /** `_build_search_queries`: all keyword-group queries, then all CPV-group
      queries, then, only when there are neither keywords nor CPV codes, one
      query per country. */
  function BuildSearchQueries(keywords: seq<string>, cpvCodes: seq<string>, countries: seq<string>,
                              yearFrom: int, yearTo: int, minValue: int): (specs: seq<QuerySpec>)
    ensures |specs| == if |keywords| == 0 && |cpvCodes| == 0 then |countries|
                       else |KeywordGroups(keywords)| + |CpvGroups(cpvCodes)|
    ensures forall i :: 0 <= i < |KeywordGroups(keywords)| ==>
              specs[i] == KeywordSpec(KeywordGroups(keywords)[i], countries, yearFrom, yearTo, minValue)
    ensures forall i :: |KeywordGroups(keywords)| <= i < |KeywordGroups(keywords)| + |CpvGroups(cpvCodes)| ==>
              specs[i] == CpvSpec(CpvGroups(cpvCodes)[i - |KeywordGroups(keywords)|], countries, yearFrom, yearTo, minValue)
    ensures forall i :: |KeywordGroups(keywords)| + |CpvGroups(cpvCodes)| <= i < |specs| ==>
              specs[i] == CountrySpec(countries[i - |KeywordGroups(keywords)| - |CpvGroups(cpvCodes)|], yearFrom, yearTo, minValue)
  {
    var kwGroups := KeywordGroups(keywords);
    var cpvGroups := CpvGroups(cpvCodes);
    var kwSpecs := seq(|kwGroups|, i requires 0 <= i < |kwGroups| =>
                         KeywordSpec(kwGroups[i], countries, yearFrom, yearTo, minValue));
    var cpvSpecs := seq(|cpvGroups|, i requires 0 <= i < |cpvGroups| =>
                          CpvSpec(cpvGroups[i], countries, yearFrom, yearTo, minValue));
    var countrySpecs := if |keywords| == 0 && |cpvCodes| == 0 then
                          seq(|countries|, i requires 0 <= i < |countries| =>
                                CountrySpec(countries[i], yearFrom, yearTo, minValue))
                        else [];
    ConcatIndex(kwSpecs, cpvSpecs, countrySpecs);
    kwSpecs + cpvSpecs + countrySpecs
  }

  /** Keyword queries come first, one per keyword group, then CPV queries,
      one per CPV group, then country queries. */
  lemma BuildKinds(keywords: seq<string>, cpvCodes: seq<string>, countries: seq<string>,
                   yearFrom: int, yearTo: int, minValue: int)
    ensures var specs := BuildSearchQueries(keywords, cpvCodes, countries, yearFrom, yearTo, minValue);
            var nk := |KeywordGroups(keywords)|;
            var nc := |CpvGroups(cpvCodes)|;
            && (forall i :: 0 <= i < nk ==>
                  specs[i].kind == KeywordStrategy && specs[i].group == KeywordGroups(keywords)[i])
            && (forall i :: nk <= i < nk + nc ==>
                  specs[i].kind == CpvStrategy && specs[i].group == CpvGroups(cpvCodes)[i - nk])
            && (forall i :: nk + nc <= i < |specs| ==>
                  specs[i].kind == CountryStrategy && specs[i].group == [countries[i - nk - nc]])
  {
  }

  /** No CPV query precedes a keyword query and no country query precedes
      either: the strategy families come out in a fixed order. */
  lemma StrategyOrder(keywords: seq<string>, cpvCodes: seq<string>, countries: seq<string>,
                      yearFrom: int, yearTo: int, minValue: int, i: int, j: int)
    requires var specs := BuildSearchQueries(keywords, cpvCodes, countries, yearFrom, yearTo, minValue);
             0 <= i < j < |specs|
    ensures var specs := BuildSearchQueries(keywords, cpvCodes, countries, yearFrom, yearTo, minValue);
            && (specs[i].kind == CpvStrategy ==> specs[j].kind != KeywordStrategy)
            && (specs[i].kind == CountryStrategy ==> specs[j].kind == CountryStrategy)
  {
  }

  /** Country queries appear only when there are no keywords and no CPV
      codes; then there is exactly one per country, in order. */
  lemma CountryFallback(keywords: seq<string>, cpvCodes: seq<string>, countries: seq<string>,
                        yearFrom: int, yearTo: int, minValue: int)
    ensures var specs := BuildSearchQueries(keywords, cpvCodes, countries, yearFrom, yearTo, minValue);
            && ((exists i :: 0 <= i < |specs| && specs[i].kind == CountryStrategy) <==>
                  (|keywords| == 0 && |cpvCodes| == 0 && |countries| > 0))
            && (|keywords| == 0 && |cpvCodes| == 0 ==>
                  forall i :: 0 <= i < |countries| ==> specs[i] == CountrySpec(countries[i], yearFrom, yearTo, minValue))
  {
    var specs := BuildSearchQueries(keywords, cpvCodes, countries, yearFrom, yearTo, minValue);
    if |keywords| == 0 && |cpvCodes| == 0 && |countries| > 0 {
      assert specs[0].kind == CountryStrategy;
    }
  }

  /** Concatenating the keyword groups gives back the keyword list, and the
      same for the CPV groups: no keyword or code is lost or repeated, and
      group `i` is the slice starting at `3 * i` (keywords) or `5 * i` (CPV
      codes). */
  lemma GroupsPartitionInput(keywords: seq<string>, cpvCodes: seq<string>)
    ensures |KeywordGroups(keywords)| == (|keywords| + 2) / 3
    ensures |CpvGroups(cpvCodes)| == (|cpvCodes| + 4) / 5
    ensures Flatten(KeywordGroups(keywords)) == keywords
    ensures Flatten(CpvGroups(cpvCodes)) == cpvCodes
    ensures forall i :: 0 <= i && 3 * i < |keywords| ==>
              KeywordGroups(keywords)[i] == keywords[3 * i .. Min(3 * i + 3, |keywords|)]
    ensures forall i :: 0 <= i && 5 * i < |cpvCodes| ==>
              CpvGroups(cpvCodes)[i] == cpvCodes[5 * i .. Min(5 * i + 5, |cpvCodes|)]
  {
    CeilDiv3(|keywords|);
    CeilDiv5(|cpvCodes|);
    ChunksFlatten(keywords, 3);
    ChunksFlatten(cpvCodes, 5);
    forall i | 0 <= i && 3 * i < |keywords|
      ensures KeywordGroups(keywords)[i] == keywords[3 * i .. Min(3 * i + 3, |keywords|)]
    {
      KeywordGroupSlice(keywords, i);
    }
    forall i | 0 <= i && 5 * i < |cpvCodes|
      ensures CpvGroups(cpvCodes)[i] == cpvCodes[5 * i .. Min(5 * i + 5, |cpvCodes|)]
    {
      CpvGroupSlice(cpvCodes, i);
    }
  }

  lemma KeywordGroupSlice(keywords: seq<string>, i: nat)
    requires 3 * i < |keywords|
    ensures i < |KeywordGroups(keywords)|
    ensures KeywordGroups(keywords)[i] == keywords[3 * i .. Min(3 * i + 3, |keywords|)]
  {
    CeilDiv3(|keywords|);
    ChunkIsSlice(keywords, 3, i);
    Offset3(i);
  }

  lemma CpvGroupSlice(cpvCodes: seq<string>, i: nat)
    requires 5 * i < |cpvCodes|
    ensures i < |CpvGroups(cpvCodes)|
    ensures CpvGroups(cpvCodes)[i] == cpvCodes[5 * i .. Min(5 * i + 5, |cpvCodes|)]
  {
    CeilDiv5(|cpvCodes|);
    ChunkIsSlice(cpvCodes, 5, i);
    Offset5(i);
  }

  predicate HasValueClause(spec: QuerySpec)
  {
    exists c :: c in spec.clauses && c.MinValue?
  }

  predicate HasCountryFilter(spec: QuerySpec)
  {
    exists c :: c in spec.clauses && c.CountryAny?
  }

  /** Each query is the keyword, CPV or country query of its group. */
  lemma BuildSpecForms(keywords: seq<string>, cpvCodes: seq<string>, countries: seq<string>,
                       yearFrom: int, yearTo: int, minValue: int, i: int)
    requires 0 <= i < |BuildSearchQueries(keywords, cpvCodes, countries, yearFrom, yearTo, minValue)|
    ensures var spec := BuildSearchQueries(keywords, cpvCodes, countries, yearFrom, yearTo, minValue)[i];
            || spec == KeywordSpec(spec.group, countries, yearFrom, yearTo, minValue)
            || spec == CpvSpec(spec.group, countries, yearFrom, yearTo, minValue)
            || (|spec.group| == 1 && spec == CountrySpec(spec.group[0], yearFrom, yearTo, minValue))
  {
  }

  /** The clauses of every query: the publication-date range always, the
      minimum-value clause exactly when `minValue > 0`, and, for keyword and
      CPV queries, the OR over all countries exactly when countries are
      given. */
  lemma BuildClauses(keywords: seq<string>, cpvCodes: seq<string>, countries: seq<string>,
                     yearFrom: int, yearTo: int, minValue: int, i: int)
    requires 0 <= i < |BuildSearchQueries(keywords, cpvCodes, countries, yearFrom, yearTo, minValue)|
    ensures var spec := BuildSearchQueries(keywords, cpvCodes, countries, yearFrom, yearTo, minValue)[i];
            && PublishedFrom(yearFrom) in spec.clauses
            && PublishedTo(yearTo) in spec.clauses
            && (HasValueClause(spec) <==> minValue > 0)
            && (minValue > 0 ==> MinValue(minValue) in spec.clauses)
            && (spec.kind != CountryStrategy ==>
                  (HasCountryFilter(spec) <==> |countries| > 0) &&
                  (|countries| > 0 ==> CountryAny(countries) in spec.clauses))
            && (spec.kind == CountryStrategy ==> !HasCountryFilter(spec))
  {
    var spec := BuildSearchQueries(keywords, cpvCodes, countries, yearFrom, yearTo, minValue)[i];
    BuildSpecForms(keywords, cpvCodes, countries, yearFrom, yearTo, minValue, i);
    var dv := DateValueClauses(yearFrom, yearTo, minValue);
    var cc := CountryClauses(countries);
    assert PublishedFrom(yearFrom) in dv && PublishedTo(yearTo) in dv;
    assert minValue > 0 ==> MinValue(minValue) in dv;
    assert forall c :: c in dv ==> !c.CountryAny?;
    assert minValue <= 0 ==> forall c :: c in dv ==> !c.MinValue?;
    assert forall c :: c in cc ==> c == CountryAny(countries);
    if spec == KeywordSpec(spec.group, countries, yearFrom, yearTo, minValue) {
      ClausesOfHead(TitleAny(spec.group), cc, dv);
      if |countries| == 0 {
        assert forall c :: c in spec.clauses ==> !c.CountryAny?;
      } else {
        assert CountryAny(countries) in spec.clauses;
      }
    } else if spec == CpvSpec(spec.group, countries, yearFrom, yearTo, minValue) {
      ClausesOfHead(CpvAny(spec.group), cc, dv);
      if |countries| == 0 {
        assert forall c :: c in spec.clauses ==> !c.CountryAny?;
      } else {
        assert CountryAny(countries) in spec.clauses;
      }
    } else {
      ClausesOfHead(CountryIs(spec.group[0]), [], dv);
    }
  }

  lemma ClausesOfHead(head: Clause, cc: seq<Clause>, dv: seq<Clause>)
    ensures forall c :: c in [head] + cc + dv <==> c == head || c in cc || c in dv
  {
  }

  /** Each query string contains the rendered publication-date bounds. */
  lemma QueryHasDateRange(keywords: seq<string>, cpvCodes: seq<string>, countries: seq<string>,
                          yearFrom: int, yearTo: int, minValue: int, i: int)
    requires 0 <= i < |BuildSearchQueries(keywords, cpvCodes, countries, yearFrom, yearTo, minValue)|
    ensures var q := BuildSearchQueries(keywords, cpvCodes, countries, yearFrom, yearTo, minValue)[i].Query();
            && Contains(q, "publication-date>=" + IntToString(yearFrom) + "-01-01")
            && Contains(q, "publication-date<=" + IntToString(yearTo) + "-12-31")
  {
    var spec := BuildSearchQueries(keywords, cpvCodes, countries, yearFrom, yearTo, minValue)[i];
    BuildClauses(keywords, cpvCodes, countries, yearFrom, yearTo, minValue, i);
    var rendered := seq(|spec.clauses|, k requires 0 <= k < |spec.clauses| => Render(spec.clauses[k]));
    var a :| 0 <= a < |spec.clauses| && spec.clauses[a] == PublishedFrom(yearFrom);
    var b :| 0 <= b < |spec.clauses| && spec.clauses[b] == PublishedTo(yearTo);
    JoinContainsPart(" AND ", rendered, a);
    JoinContainsPart(" AND ", rendered, b);
  }

  /** Four keywords and one country give two keyword queries, grouped
      `x,y,z` and `w`, each filtered on the country. */
  lemma FourKeywordsExample()
    ensures var specs := BuildSearchQueries(["x", "y", "z", "w"], [], ["DE"], 2024, 2024, 0);
            && |specs| == 2
            && specs[0].kind == KeywordStrategy && specs[0].group == ["x", "y", "z"]
            && specs[1].kind == KeywordStrategy && specs[1].group == ["w"]
            && CountryAny(["DE"]) in specs[0].clauses
            && CountryAny(["DE"]) in specs[1].clauses
  {
    var specs := BuildSearchQueries(["x", "y", "z", "w"], [], ["DE"], 2024, 2024, 0);
    var kw := ["x", "y", "z", "w"];
    assert kw[3..] == ["w"];
    assert kw[..3] == ["x", "y", "z"];
    BuildClauses(kw, [], ["DE"], 2024, 2024, 0, 0);
    BuildClauses(kw, [], ["DE"], 2024, 2024, 0, 1);
  }
}

=== FILE: ranking.dfy ===
/** Ranking of processed notices: Python's `list.sort(key=…, reverse=True)`
    on an integer key and the slice `xs[:m]`.

    Python's sort is stable, and `reverse=True` keeps it stable: elements
    with equal keys stay in their original order. The sort is modelled as
    an insertion sort with exactly that behaviour. */
module Ranking {
  import opened Seqs

  /** Keys never increase from left to right. */
  ghost predicate SortedDesc<T>(xs: seq<T>, key: T -> int)
  {
    forall i, j :: 0 <= i < j < |xs| ==> key(xs[i]) >= key(xs[j])
  }

  /** Places `x` in front of the first element whose key is not larger. */
  function Insert<T>(x: T, s: seq<T>, key: T -> int): (r: seq<T>)
    ensures |r| == |s| + 1
    ensures multiset(r) == multiset(s) + multiset{x}
    ensures r[0] == x || (|s| > 0 && r[0] == s[0])
  {
    if |s| == 0 || key(x) >= key(s[0]) then [x] + s
    else
      assert s == [s[0]] + s[1..];
      [s[0]] + Insert(x, s[1..], key)
  }

  /** A sorted list stays sorted with an element in front whose key is at
      least that of the first element. */
  lemma SortedCons<T>(y: T, t: seq<T>, key: T -> int)
    requires SortedDesc(t, key)
    requires |t| > 0 ==> key(y) >= key(t[0])
    ensures SortedDesc([y] + t, key)
  {
    var r := [y] + t;
    forall i, j | 0 <= i < j < |r|
      ensures key(r[i]) >= key(r[j])
    {
      assert r[j] == t[j - 1];
      if i > 0 {
        assert r[i] == t[i - 1];
      } else {
        assert key(t[0]) >= key(t[j - 1]);
      }
    }
  }

  lemma {:induction false} InsertSorted<T>(x: T, s: seq<T>, key: T -> int)
    requires SortedDesc(s, key)
    ensures SortedDesc(Insert(x, s, key), key)
  {
    if |s| == 0 || key(x) >= key(s[0]) {
      SortedCons(x, s, key);
    } else {
      var tail := Insert(x, s[1..], key);
      InsertSorted(x, s[1..], key);
      assert Insert(x, s, key) == [s[0]] + tail;
      assert |s[1..]| > 0 ==> s[1..][0] == s[1];
      SortedCons(s[0], tail, key);
    }
  }

  /** The list sorted by non-increasing key, equal keys in input order. */
  function SortDesc<T>(xs: seq<T>, key: T -> int): (r: seq<T>)
    ensures |r| == |xs|
    ensures multiset(r) == multiset(xs)
    ensures SortedDesc(r, key)
  {
    if |xs| == 0 then []
    else
      var rest := SortDesc(xs[1..], key);
      InsertSorted(xs[0], rest, key);
      assert xs == [xs[0]] + xs[1..];
      Insert(xs[0], rest, key)
  }

  /** The sorted list holds exactly the elements of the input. */
  lemma SortMembers<T>(xs: seq<T>, key: T -> int, x: T)
    ensures x in SortDesc(xs, key) <==> x in xs
  {
    assert x in SortDesc(xs, key) <==> x in multiset(SortDesc(xs, key));
  }

  /** The elements whose key is `k`. */
  function HasKey<T>(key: T -> int, k: int): T -> bool
  {
    y => key(y) == k
  }

  lemma {:induction false} InsertFilter<T>(x: T, s: seq<T>, key: T -> int, k: int)
    ensures Filter(Insert(x, s, key), HasKey(key, k)) ==
            (if key(x) == k then [x] else []) + Filter(s, HasKey(key, k))
  {
    var p := HasKey(key, k);
    if |s| == 0 || key(x) >= key(s[0]) {
      assert Insert(x, s, key) == [x] + s;
      FilterCons(x, s, p);
    } else {
      var tail := Insert(x, s[1..], key);
      InsertFilter(x, s[1..], key, k);
      assert Insert(x, s, key) == [s[0]] + tail;
      InsertFilterStep(x, s, tail, p, key(x) == k, key(s[0]) == k);
    }
  }

  lemma InsertFilterStep<T>(x: T, s: seq<T>, tail: seq<T>, p: T -> bool, px: bool, p0: bool)
    requires |s| > 0 && px == p(x) && p0 == p(s[0]) && !(px && p0)
    requires Filter(tail, p) == (if px then [x] else []) + Filter(s[1..], p)
    ensures Filter([s[0]] + tail, p) == (if px then [x] else []) + Filter(s, p)
  {
    FilterCons(s[0], tail, p);
    FilterCons(s[0], s[1..], p);
    assert [s[0]] + s[1..] == s;
  }

  /** Stability: for every key value, the elements carrying it appear in
      the same order before and after sorting. */
  lemma {:induction false} SortStable<T>(xs: seq<T>, key: T -> int, k: int)
    ensures Filter(SortDesc(xs, key), HasKey(key, k)) == Filter(xs, HasKey(key, k))
  {
    if |xs| > 0 {
      SortStable(xs[1..], key, k);
      InsertFilter(xs[0], SortDesc(xs[1..], key), key, k);
    }
  }

  lemma {:induction false} InsertDistinct<T, K>(x: T, s: seq<T>, key: T -> int, id: T -> K)
    requires DistinctBy(s, id)
    requires forall j :: 0 <= j < |s| ==> id(s[j]) != id(x)
    ensures DistinctBy(Insert(x, s, key), id)
  {
    if |s| == 0 || key(x) >= key(s[0]) {
      DistinctByCons(x, s, id);
    } else {
      DistinctByCons(s[0], s[1..], id);
      assert [s[0]] + s[1..] == s;
      assert forall j :: 0 <= j < |s[1..]| ==> s[1..][j] == s[j + 1];
      InsertDistinct(x, s[1..], key, id);
      var tail := Insert(x, s[1..], key);
      forall j | 0 <= j < |tail|
        ensures id(tail[j]) != id(s[0])
      {
        assert tail[j] in multiset(s[1..]) + multiset{x};
        if tail[j] != x {
          assert tail[j] in s[1..];
          var m :| 0 <= m < |s[1..]| && s[1..][m] == tail[j];
          assert s[m + 1] == tail[j];
        }
      }
      DistinctByCons(s[0], tail, id);
    }
  }

  /** Sorting keeps distinct identifiers distinct. */
  lemma {:induction false} SortDistinct<T, K>(xs: seq<T>, key: T -> int, id: T -> K)
    requires DistinctBy(xs, id)
    ensures DistinctBy(SortDesc(xs, key), id)
  {
    if |xs| > 0 {
      DistinctByCons(xs[0], xs[1..], id);
      assert [xs[0]] + xs[1..] == xs;
      SortDistinct(xs[1..], key, id);
      var rest := SortDesc(xs[1..], key);
      forall j | 0 <= j < |rest|
        ensures id(rest[j]) != id(xs[0])
      {
        assert rest[j] in multiset(xs[1..]);
        var m :| 0 <= m < |xs[1..]| && xs[1..][m] == rest[j];
      }
      InsertDistinct(xs[0], rest, key, id);
    }
  }

  /** Python's `xs[:m]`: the first `m` elements, all of them when `m` is
      larger than the list, and all but the last `-m` when `m` is negative. */
  function Take<T>(xs: seq<T>, m: int): (r: seq<T>)
    ensures 0 <= m ==> |r| == (if m <= |xs| then m else |xs|)
    ensures m < 0 ==> |r| == (if -m <= |xs| then |xs| + m else 0)
    ensures r == xs[..|r|]
  {
    if m >= 0 then (if m <= |xs| then xs[..m] else xs)
    else if -m <= |xs| then xs[..|xs| + m]
    else []
  }

  /** A prefix of a sorted list is sorted. */
  lemma TakeSorted<T>(xs: seq<T>, m: int, key: T -> int)
    requires SortedDesc(xs, key)
    ensures SortedDesc(Take(xs, m), key)
  {
  }

  /** The list ranked by non-increasing key and cut to `m` elements: what
      `xs.sort(key=key, reverse=True); xs[:m]` leaves. Nothing left out
      ranks above anything kept. */
  function Rank<T>(xs: seq<T>, key: T -> int, m: int): (r: seq<T>)
    ensures 0 <= m ==> |r| == (if m <= |xs| then m else |xs|)
    ensures forall i :: 0 <= i < |r| ==> r[i] in xs
    ensures forall t :: t in xs && t !in r ==> forall i :: 0 <= i < |r| ==> key(r[i]) >= key(t)
    ensures SortedDesc(r, key)
    ensures multiset(r) <= multiset(xs)
    ensures forall k :: Filter(r, HasKey(key, k)) <= Filter(xs, HasKey(key, k))
  {
    var sorted := SortDesc(xs, key);
    TakeSorted(sorted, m, key);
    PrefixMembers(xs, sorted, m);
    PrefixTop(sorted, m, key);
    TakeFacts(sorted, m, key);
    forall k
      ensures Filter(sorted, HasKey(key, k)) == Filter(xs, HasKey(key, k))
    {
      SortStable(xs, key, k);
    }
    Take(sorted, m)
  }

  /** A prefix holds each element at most as often as the list, and, for
      every key value, a prefix of the elements carrying it. */
  lemma TakeFacts<T>(xs: seq<T>, m: int, key: T -> int)
    ensures multiset(Take(xs, m)) <= multiset(xs)
    ensures forall k :: Filter(Take(xs, m), HasKey(key, k)) <= Filter(xs, HasKey(key, k))
  {
    var r := Take(xs, m);
    var rest := xs[|r|..];
    assert xs == r + rest;
    assert multiset(xs) == multiset(r) + multiset(rest);
    forall k
      ensures Filter(r, HasKey(key, k)) <= Filter(xs, HasKey(key, k))
    {
      FilterAppend(r, rest, HasKey(key, k));
    }
  }

  lemma PrefixMembers<T>(xs: seq<T>, sorted: seq<T>, m: int)
    requires multiset(sorted) == multiset(xs)
    ensures forall i :: 0 <= i < |Take(sorted, m)| ==> Take(sorted, m)[i] in xs
    ensures forall t :: t in xs ==> t in sorted
  {
    var r := Take(sorted, m);
    forall i | 0 <= i < |r|
      ensures r[i] in xs
    {
      assert r[i] == sorted[i];
      assert r[i] in multiset(sorted);
    }
    forall t | t in xs
      ensures t in sorted
    {
      assert t in multiset(xs);
    }
  }

  lemma PrefixTop<T>(sorted: seq<T>, m: int, key: T -> int)
    requires SortedDesc(sorted, key)
    ensures forall t :: t in sorted && t !in Take(sorted, m) ==>
              forall i :: 0 <= i < |Take(sorted, m)| ==> key(Take(sorted, m)[i]) >= key(t)
  {
    var r := Take(sorted, m);
    forall t | t in sorted && t !in r
      ensures forall i :: 0 <= i < |r| ==> key(r[i]) >= key(t)
    {
      var j :| 0 <= j < |sorted| && sorted[j] == t;
      forall i | 0 <= i < |r|
        ensures key(r[i]) >= key(t)
      {
        assert r[i] == sorted[i];
      }
    }
  }

  /** Ranking keeps distinct identifiers distinct. */
  lemma RankDistinct<T, K>(xs: seq<T>, key: T -> int, m: int, id: T -> K)
    requires DistinctBy(xs, id)
    ensures DistinctBy(Rank(xs, key, m), id)
  {
    SortDistinct(xs, key, id);
    var sorted := SortDesc(xs, key);
    assert forall i :: 0 <= i < |Rank(xs, key, m)| ==> Rank(xs, key, m)[i] == sorted[i];
  }

  /** `[x for x in xs if p(x)]` sorted by non-increasing key: exactly the
      elements satisfying `p`, ranked. */
  function KeepSorted<T>(xs: seq<T>, p: T -> bool, key: T -> int): (r: seq<T>)
    ensures |r| == Count(xs, p)
    ensures forall i :: 0 <= i < |r| ==> p(r[i]) && r[i] in xs
    ensures forall i :: 0 <= i < |xs| && p(xs[i]) ==> xs[i] in r
    ensures SortedDesc(r, key)
    ensures multiset(r) == multiset(Filter(xs, p))
    ensures forall k :: Filter(r, HasKey(key, k)) == Filter(Filter(xs, p), HasKey(key, k))
  {
    var kept := Filter(xs, p);
    FilterMembers(xs, p);
    var r := SortDesc(kept, key);
    forall i | 0 <= i < |r|
      ensures p(r[i]) && r[i] in xs
    {
      SortMembers(kept, key, r[i]);
      var k :| 0 <= k < |kept| && kept[k] == r[i];
    }
    forall i | 0 <= i < |xs| && p(xs[i])
      ensures xs[i] in r
    {
      SortMembers(kept, key, xs[i]);
    }
    forall k
      ensures Filter(r, HasKey(key, k)) == Filter(kept, HasKey(key, k))
    {
      SortStable(kept, key, k);
    }
    r
  }

  /** `f` applied to every element, then kept and ranked as `KeepSorted`
      does: every result is the image of some input, and every image
      satisfying `p` is among the results, as often as it occurs among the
      images; images with equal keys keep their input order. */
  function MapKeepSorted<S, T>(xs: seq<S>, f: S -> T, p: T -> bool, key: T -> int): (r: seq<T>)
    ensures forall i :: 0 <= i < |r| ==> p(r[i]) && exists k :: 0 <= k < |xs| && f(xs[k]) == r[i]
    ensures forall k :: 0 <= k < |xs| && p(f(xs[k])) ==> f(xs[k]) in r
    ensures SortedDesc(r, key)
    ensures multiset(r) == multiset(Filter(Map(xs, f), p))
    ensures forall k :: Filter(r, HasKey(key, k)) == Filter(Filter(Map(xs, f), p), HasKey(key, k))
  {
    var built := Map(xs, f);
    var r := KeepSorted(built, p, key);
    forall i | 0 <= i < |r|
      ensures exists k :: 0 <= k < |xs| && f(xs[k]) == r[i]
    {
      var k :| 0 <= k < |built| && built[k] == r[i];
    }
    forall k | 0 <= k < |xs| && p(f(xs[k]))
      ensures f(xs[k]) in r
    {
      assert built[k] == f(xs[k]);
    }
    r
  }

  /** A property every input element has, every ranked element has. */
  lemma RankPreserves<T>(xs: seq<T>, key: T -> int, m: int, q: T -> bool)
    requires forall i :: 0 <= i < |xs| ==> q(xs[i])
    ensures forall i :: 0 <= i < |Rank(xs, key, m)| ==> q(Rank(xs, key, m)[i])
  {
    var r := Rank(xs, key, m);
    forall i | 0 <= i < |r|
      ensures q(r[i])
    {
      var k :| 0 <= k < |xs| && xs[k] == r[i];
    }
  }

  /** A property of every image is a property of every result. */
  lemma MapKeepSortedPreserves<S, T>(xs: seq<S>, f: S -> T, p: T -> bool, key: T -> int, q: T -> bool)
    requires forall k :: 0 <= k < |xs| ==> q(f(xs[k]))
    ensures forall i :: 0 <= i < |MapKeepSorted(xs, f, p, key)| ==> q(MapKeepSorted(xs, f, p, key)[i])
  {
    var r := MapKeepSorted(xs, f, p, key);
    forall i | 0 <= i < |r|
      ensures q(r[i])
    {
      var k :| 0 <= k < |xs| && f(xs[k]) == r[i];
    }
  }
}

=== FILE: scoring.dfy ===
/** The weighted relevance score (`_calculate_relevance_score`), the
    weights it reads (`scoring_criteria`, merged by `set_scoring_criteria`)
    and the deadline classifier (`_determine_status`) of the generic engine.

    Python evaluates the score in floating point; here the sub-scores and
    the weighted sum are exact reals, and `int(score)` is truncation toward
    zero. */
module Scoring {
  import opened Wrappers
  import opened Strings
  import opened Seqs
  import opened Json

  // ---------------------------------------------------------------------
  // Weights

  /** `scoring_criteria`: weight name to integer weight. */
  type Criteria = map<string, int>

  const KeywordMatch := "keywordMatch"
  const CpvMatch := "cpvMatch"
  const CountryMatch := "countryMatch"
  const ValueMatch := "valueMatch"

  /** The weights a fresh engine starts with. */
  const DefaultCriteria: Criteria :=
    map[KeywordMatch := 40, CpvMatch := 30, CountryMatch := 20, ValueMatch := 10]

  /** The four weights the score reads are present. */
  predicate HasWeights(c: Criteria)
  {
    KeywordMatch in c && CpvMatch in c && CountryMatch in c && ValueMatch in c
  }

  predicate NonNegativeWeights(c: Criteria)
    requires HasWeights(c)
  {
    c[KeywordMatch] >= 0 && c[CpvMatch] >= 0 && c[CountryMatch] >= 0 && c[ValueMatch] >= 0
  }

  /** `set_scoring_criteria(update)`: `dict.update`, so a weight the update
      does not name keeps its previous value. */
  function SetScoringCriteria(current: Criteria, update: Criteria): (r: Criteria)
    ensures forall k :: k in update ==> k in r && r[k] == update[k]
    ensures forall k :: k in current && k !in update ==> k in r && r[k] == current[k]
    ensures forall k :: k in r ==> k in current || k in update
  {
    current + update
  }

  /** Starting from the defaults, any sequence of updates leaves every
      weight the score reads in place, so the score never raises `KeyError`. */
  lemma {:induction false} UpdatesKeepWeights(updates: seq<Criteria>)
    ensures HasWeights(ApplyUpdates(DefaultCriteria, updates))
  {
    ApplyUpdatesKeepsWeights(DefaultCriteria, updates);
  }

  /** The weights after calling `set_scoring_criteria` with each update in turn. */
  function ApplyUpdates(c: Criteria, updates: seq<Criteria>): Criteria
    decreases |updates|
  {
    if |updates| == 0 then c else ApplyUpdates(SetScoringCriteria(c, updates[0]), updates[1..])
  }

  lemma {:induction false} ApplyUpdatesKeepsWeights(c: Criteria, updates: seq<Criteria>)
    requires HasWeights(c)
    ensures HasWeights(ApplyUpdates(c, updates))
    decreases |updates|
  {
    if |updates| > 0 {
      ApplyUpdatesKeepsWeights(SetScoringCriteria(c, updates[0]), updates[1..]);
    }
  }

  /** An update naming only some weights changes exactly those. */
  lemma PartialUpdate(w: int)
    ensures SetScoringCriteria(DefaultCriteria, map[KeywordMatch := w]) ==
            map[KeywordMatch := w, CpvMatch := 30, CountryMatch := 20, ValueMatch := 10]
  {
  }

  // ---------------------------------------------------------------------
  // Sub-scores

  function MinReal(a: real, b: real): real
  {
    if a <= b then a else b
  }

  /** `min(100, (matches / total) * 100)`. */
  function Percent(matches: nat, total: nat): (r: real)
    requires matches <= total && total > 0
    ensures 0.0 <= r <= 100.0
    ensures r == 100.0 <==> matches == total
    ensures r == 0.0 <==> matches == 0
    ensures r == (matches as real / total as real) * 100.0
  {
    var f := matches as real / total as real;
    assert f <= 1.0;
    assert f == 1.0 <==> matches == total;
    MinReal(100.0, f * 100.0)
  }

  /** `kw.lower() in title_lower or kw.lower() in buyer_lower`. */
  predicate KeywordHit(kw: string, title: string, buyer: string)
  {
    Contains(Lower(title), Lower(kw)) || Contains(Lower(buyer), Lower(kw))
  }

  /** The keyword test as a predicate on keywords. */
  function KeywordHitIn(title: string, buyer: string): string -> bool
  {
    kw => KeywordHit(kw, title, buyer)
  }

  /** The keyword sub-score: the share of keywords found, case-insensitively,
      in the title or the buyer name; 0 when no keywords were requested. */
  function KeywordScore(keywords: seq<string>, title: string, buyer: string): (r: real)
    ensures 0.0 <= r <= 100.0
    ensures |keywords| == 0 ==> r == 0.0
    ensures |keywords| > 0 ==>
              r == (Count(keywords, KeywordHitIn(title, buyer)) as real / |keywords| as real) * 100.0
    ensures |keywords| > 0 ==>
              (r == 100.0 <==> forall i :: 0 <= i < |keywords| ==> KeywordHit(keywords[i], title, buyer))
    ensures |keywords| > 0 ==>
              (r == 0.0 <==> forall i :: 0 <= i < |keywords| ==> !KeywordHit(keywords[i], title, buyer))
  {
    if |keywords| == 0 then 0.0
    else
      var hit := KeywordHitIn(title, buyer);
      CountExtremes(keywords, hit);
      Percent(Count(keywords, hit), |keywords|)
  }

  /** `cpv[:4]`. */
  function CpvPrefix(cpv: string): string
  {
    if |cpv| <= 4 then cpv else cpv[..4]
  }

  /** `any(tcpv.startswith(cpv[:4]) for tcpv in tender_cpv)`. */
  predicate CpvHit(cpv: string, tenderCpv: seq<string>)
  {
    exists j :: 0 <= j < |tenderCpv| && StartsWith(tenderCpv[j], CpvPrefix(cpv))
  }

  /** The CPV test as a predicate on requested codes. */
  function CpvHitIn(tenderCpv: seq<string>): string -> bool
  {
    cpv => CpvHit(cpv, tenderCpv)
  }

  /** The CPV sub-score: the share of requested codes whose first four
      characters begin one of the notice's codes; 0 unless both lists are
      non-empty. */
  function CpvScore(cpvCodes: seq<string>, tenderCpv: seq<string>): (r: real)
    ensures 0.0 <= r <= 100.0
    ensures |cpvCodes| == 0 || |tenderCpv| == 0 ==> r == 0.0
    ensures |cpvCodes| > 0 && |tenderCpv| > 0 ==>
              r == (Count(cpvCodes, CpvHitIn(tenderCpv)) as real / |cpvCodes| as real) * 100.0
    ensures |cpvCodes| > 0 && |tenderCpv| > 0 ==>
              (r == 100.0 <==> forall i :: 0 <= i < |cpvCodes| ==> CpvHit(cpvCodes[i], tenderCpv))
    ensures |cpvCodes| > 0 ==>
              (r == 0.0 <==> forall i :: 0 <= i < |cpvCodes| ==> !CpvHit(cpvCodes[i], tenderCpv))
  {
    if |cpvCodes| == 0 || |tenderCpv| == 0 then 0.0
    else
      var hit := CpvHitIn(tenderCpv);
      CountExtremes(cpvCodes, hit);
      Percent(Count(cpvCodes, hit), |cpvCodes|)
  }

  /** Codes of the same group and class match on their first four digits,
      codes of another group do not. */
  lemma CpvPrefixExample()
    ensures CpvHit("42510000", ["42515000"])
    ensures !CpvHit("42510000", ["42600000"])
  {
    var hit: seq<string> := ["42515000"];
    assert StartsWith(hit[0], CpvPrefix("42510000"));
    assert !StartsWith("42600000", CpvPrefix("42510000")) by {
      assert "42600000"[..4][2] != "4251"[2];
    }
  }

  /** The country sub-score: 100 exactly when the notice's `buyer-country`
      is one of the requested strings (a value of another type equals no
      string). */
  function CountryScore(country: Value, countries: seq<string>): (r: real)
    ensures r == 100.0 || r == 0.0
    ensures r == 100.0 <==> exists i :: 0 <= i < |countries| && country == Str(countries[i])
  {
    if country.Str? && country.s in countries then 100.0 else 0.0
  }

  /** The value sub-score, with the engine's thresholds: at least the
      minimum and more than ten, five or one times it. */
  function ValueScore(value: int, minValue: int): (r: real)
    ensures r == 0.0 || r == 50.0 || r == 75.0 || r == 100.0
    ensures value < minValue ==> r == 0.0
    ensures value >= minValue && value > minValue * 10 ==> r == 100.0
    ensures value >= minValue && minValue * 5 < value <= minValue * 10 ==> r == 75.0
    ensures value >= minValue && minValue < value <= minValue * 5 ==> r == 50.0
    ensures value == minValue && minValue >= 0 ==> r == 0.0
  {
    if value >= minValue then
      if value > minValue * 10 then 100.0
      else if value > minValue * 5 then 75.0
      else if value > minValue then 50.0
      else 0.0
    else 0.0
  }

  /** A larger value never scores lower, for any minimum. */
  lemma ValueScoreMonotone(v1: int, v2: int, minValue: int)
    requires v1 <= v2
    ensures ValueScore(v1, minValue) <= ValueScore(v2, minValue)
  {
  }

  /** Boundary cases: with a minimum of 1000, 5001 scores 75 and 5000 only
      50; with a minimum of 0 every positive value scores 100, and 0 itself
      scores 0. */
  lemma ValueScoreExamples()
    ensures ValueScore(5001, 1000) == 75.0
    ensures ValueScore(5000, 1000) == 50.0
    ensures ValueScore(1000, 1000) == 0.0
    ensures ValueScore(999, 1000) == 0.0
    ensures forall v :: v > 0 ==> ValueScore(v, 0) == 100.0
    ensures ValueScore(0, 0) == 0.0
  {
  }

  // ---------------------------------------------------------------------
  // Weighted score

  /** Python's `int(x)` on a number: truncation toward zero. */
  function TruncToInt(x: real): (r: int)
    ensures 0.0 <= x ==> r as real <= x < r as real + 1.0
    ensures x < 0.0 ==> r as real - 1.0 < x <= r as real
  {
    if x >= 0.0 then x.Floor else -((-x).Floor)
  }

  /** The weighted sum of the four sub-scores, each weight applied as
      `sub_score * weight / 100`. */
  function WeightedSum(keyword: real, cpv: real, country: real, value: real, c: Criteria): real
    requires HasWeights(c)
  {
    keyword * c[KeywordMatch] as real / 100.0
    + cpv * c[CpvMatch] as real / 100.0
    + country * c[CountryMatch] as real / 100.0
    + value * c[ValueMatch] as real / 100.0
  }

  lemma WeightedNonNegative(keyword: real, cpv: real, country: real, value: real, c: Criteria)
    requires HasWeights(c)
    requires keyword >= 0.0 && cpv >= 0.0 && country >= 0.0 && value >= 0.0
    ensures NonNegativeWeights(c) ==> WeightedSum(keyword, cpv, country, value, c) >= 0.0
  {
    if NonNegativeWeights(c) {
    MulNonNegative(keyword, c[KeywordMatch] as real);
    MulNonNegative(cpv, c[CpvMatch] as real);
    MulNonNegative(country, c[CountryMatch] as real);
    MulNonNegative(value, c[ValueMatch] as real);
    }
  }

  lemma MulNonNegative(a: real, b: real)
    requires a >= 0.0 && b >= 0.0
    ensures a * b >= 0.0
  {
  }

  /** What the score reads of a processed notice. */
  datatype Scored = Scored(title: string, buyerName: string, cpvCodes: seq<string>,
                           country: Value, estimatedValueEur: int)

  /** `_calculate_relevance_score`: the truncated weighted sum, capped at
      100. Never above 100, and never negative when no weight is. */
  function RelevanceScore(t: Scored, keywords: seq<string>, cpvCodes: seq<string>,
                          countries: seq<string>, minValue: int, c: Criteria): (r: int)
    requires HasWeights(c)
    ensures r <= 100
    ensures NonNegativeWeights(c) ==> r >= 0
  {
    var kw := KeywordScore(keywords, t.title, t.buyerName);
    var cpv := CpvScore(cpvCodes, t.cpvCodes);
    var country := CountryScore(t.country, countries);
    var value := ValueScore(t.estimatedValueEur, minValue);
    var sum := WeightedSum(kw, cpv, country, value, c);
    WeightedNonNegative(kw, cpv, country, value, c);
    if TruncToInt(sum) <= 100 then TruncToInt(sum) else 100
  }

  /** With the default weights (40, 30, 20, 10) the weighted sum lies in
      [0, 100], so the cap never fires: the score is the truncated sum
      0.4 keyword + 0.3 CPV + 0.2 country + 0.1 value. */
  lemma DefaultWeightsUncapped(t: Scored, keywords: seq<string>, cpvCodes: seq<string>,
                               countries: seq<string>, minValue: int)
    ensures var kw := KeywordScore(keywords, t.title, t.buyerName);
            var cpv := CpvScore(cpvCodes, t.cpvCodes);
            var country := CountryScore(t.country, countries);
            var value := ValueScore(t.estimatedValueEur, minValue);
            var sum := kw * 0.4 + cpv * 0.3 + country * 0.2 + value * 0.1;
            && 0.0 <= sum <= 100.0
            && RelevanceScore(t, keywords, cpvCodes, countries, minValue, DefaultCriteria) == sum.Floor
  {
    var kw := KeywordScore(keywords, t.title, t.buyerName);
    var cpv := CpvScore(cpvCodes, t.cpvCodes);
    var country := CountryScore(t.country, countries);
    var value := ValueScore(t.estimatedValueEur, minValue);
    assert WeightedSum(kw, cpv, country, value, DefaultCriteria) == kw * 0.4 + cpv * 0.3 + country * 0.2 + value * 0.1;
  }

  /** With the default weights, a notice that matches every keyword, every
      CPV code, the country and more than ten times the minimum value
      scores 100. */
  lemma {:induction false} PerfectMatchScoresHundred(t: Scored, keywords: seq<string>, cpvCodes: seq<string>,
                                                     countries: seq<string>, minValue: int)
    requires |keywords| > 0 && forall i :: 0 <= i < |keywords| ==> KeywordHit(keywords[i], t.title, t.buyerName)
    requires |cpvCodes| > 0 && |t.cpvCodes| > 0
    requires forall i :: 0 <= i < |cpvCodes| ==> CpvHit(cpvCodes[i], t.cpvCodes)
    requires t.country.Str? && t.country.s in countries
    requires t.estimatedValueEur >= minValue && t.estimatedValueEur > minValue * 10
    ensures RelevanceScore(t, keywords, cpvCodes, countries, minValue, DefaultCriteria) == 100
  {
    var kw := KeywordScore(keywords, t.title, t.buyerName);
    var cpv := CpvScore(cpvCodes, t.cpvCodes);
    assert kw == 100.0;
    assert cpv == 100.0;
    assert WeightedSum(kw, cpv, 100.0, 100.0, DefaultCriteria) == 100.0;
  }

  /** With the default weights and no minimum, a notice that matches
      nothing and has no value scores 0. */
  lemma {:induction false} NoMatchScoresZero(t: Scored, keywords: seq<string>, cpvCodes: seq<string>,
                                             countries: seq<string>)
    requires forall i :: 0 <= i < |keywords| ==> !KeywordHit(keywords[i], t.title, t.buyerName)
    requires forall i :: 0 <= i < |cpvCodes| ==> !CpvHit(cpvCodes[i], t.cpvCodes)
    requires !t.country.Str? || t.country.s !in countries
    requires t.estimatedValueEur == 0
    ensures RelevanceScore(t, keywords, cpvCodes, countries, 0, DefaultCriteria) == 0
  {
    var kw := KeywordScore(keywords, t.title, t.buyerName);
    var cpv := CpvScore(cpvCodes, t.cpvCodes);
    assert kw == 0.0;
    assert cpv == 0.0;
  }

  // ---------------------------------------------------------------------
  // Status

  datatype Status = Active | Expired | Unknown
  {
    /** The status string stored in the record. */
    function Label(): (s: string)
      ensures s == "active" || s == "expired" || s == "unknown"
    {
      match this
      case Active => "active"
      case Expired => "expired"
      case Unknown => "unknown"
    }
  }

  /** `s.replace('Z', '+00:00')`. */
  function ReplaceZ(s: string): (r: string)
    ensures forall i :: 0 <= i < |r| ==> r[i] != 'Z'
    ensures (forall i :: 0 <= i < |s| ==> s[i] != 'Z') ==> r == s
  {
    if |s| == 0 then ""
    else (if s[0] == 'Z' then "+00:00" else [s[0]]) + ReplaceZ(s[1..])
  }

  /** `_determine_status`. `parse` stands for `datetime.fromisoformat`
      (`None` when it raises) and `now` for the current instant. A falsy
      deadline and one that is not a string (whose `replace` raises) are
      both `'unknown'`. */
  function DetermineStatus(deadline: Value, parse: string -> Option<int>, now: int): (r: Status)
    ensures !Truthy(deadline) || !deadline.Str? ==> r == Unknown
    ensures r == Active <==>
              deadline.Str? && deadline.s != "" && parse(ReplaceZ(deadline.s)).Some?
              && now < parse(ReplaceZ(deadline.s)).value
    ensures r == Expired <==>
              deadline.Str? && deadline.s != "" && parse(ReplaceZ(deadline.s)).Some?
              && parse(ReplaceZ(deadline.s)).value <= now
  {
    if !Truthy(deadline) then Unknown
    else match deadline
      case Str(s) =>
        (match parse(ReplaceZ(s))
         case None => Unknown
         case Some(d) => if now < d then Active else Expired)
      case _ => Unknown
  }

  /** `replace` works character by character: it distributes over
      concatenation, rewrites a single `Z` as `+00:00` and keeps any other
      character. Together these fix `ReplaceZ` on every string. */
  lemma {:induction false} ReplaceZAppend(a: string, b: string)
    ensures ReplaceZ(a + b) == ReplaceZ(a) + ReplaceZ(b)
    ensures ReplaceZ("Z") == "+00:00"
    ensures forall c :: c != 'Z' ==> ReplaceZ([c]) == [c]
    decreases |a|
  {
    if |a| > 0 {
      assert (a + b)[1..] == a[1..] + b;
      ReplaceZAppend(a[1..], b);
    } else {
      assert a + b == b;
    }
  }

  /** A deadline that is exactly now has passed. */
  lemma DeadlineNowIsExpired(s: string, parse: string -> Option<int>, now: int)
    requires s != "" && parse(ReplaceZ(s)) == Some(now)
    ensures DetermineStatus(Str(s), parse, now) == Expired
  {
  }
}

=== FILE: seqs.dfy ===
/** Generic sequence helpers: concatenation of a list of lists, counting,
    and the subsequence and distinctness relations the pipeline keeps. */
module Seqs {

  /** Concatenation of all the inner sequences, in order (`sum(xss, [])`). */
  function Flatten<T>(xss: seq<seq<T>>): seq<T>
  {
    if |xss| == 0 then [] else xss[0] + Flatten(xss[1..])
  }

  lemma FlattenAppend<T>(xss: seq<seq<T>>, ys: seq<T>)
    ensures Flatten(xss + [ys]) == Flatten(xss) + ys
  {
    if |xss| == 0 {
      assert xss + [ys] == [ys];
    } else {
      assert (xss + [ys])[1..] == xss[1..] + [ys];
      FlattenAppend(xss[1..], ys);
    }
  }

  /** Where the elements of a three-part concatenation come from. */
  lemma ConcatIndex<T>(a: seq<T>, b: seq<T>, c: seq<T>)
    ensures forall i :: 0 <= i < |a| ==> (a + b + c)[i] == a[i]
    ensures forall i :: |a| <= i < |a| + |b| ==> (a + b + c)[i] == b[i - |a|]
    ensures forall i :: |a| + |b| <= i < |a| + |b| + |c| ==> (a + b + c)[i] == c[i - |a| - |b|]
  {
  }

  /** `[f(x) for x in xs]`. */
  function Map<S, T>(xs: seq<S>, f: S -> T): (r: seq<T>)
    ensures |r| == |xs|
    ensures forall i :: 0 <= i < |xs| ==> r[i] == f(xs[i])
  {
    seq(|xs|, i requires 0 <= i < |xs| => f(xs[i]))
  }

  /** Number of elements of `xs` that satisfy `p`. */
  function Count<T>(xs: seq<T>, p: T -> bool): (n: nat)
    ensures n <= |xs|
  {
    if |xs| == 0 then 0 else (if p(xs[0]) then 1 else 0) + Count(xs[1..], p)
  }

  /** `Count` reaches the length exactly when every element satisfies `p`,
      and is zero exactly when none does. */
  lemma {:induction false} CountExtremes<T>(xs: seq<T>, p: T -> bool)
    ensures Count(xs, p) == |xs| <==> forall i :: 0 <= i < |xs| ==> p(xs[i])
    ensures Count(xs, p) == 0 <==> forall i :: 0 <= i < |xs| ==> !p(xs[i])
  {
    if |xs| > 0 {
      CountExtremes(xs[1..], p);
      assert forall i :: 1 <= i < |xs| ==> xs[i] == xs[1..][i - 1];
    }
  }

  /** `a` can be obtained from `b` by deleting elements. */
  ghost predicate IsSubsequence<T>(a: seq<T>, b: seq<T>)
    decreases |b|
  {
    |a| == 0 ||
    (|b| > 0 && ((a[0] == b[0] && IsSubsequence(a[1..], b[1..])) || IsSubsequence(a, b[1..])))
  }

  /** Every element of a subsequence is an element of the sequence. */
  lemma {:induction false} SubsequenceMembers<T>(a: seq<T>, b: seq<T>)
    requires IsSubsequence(a, b)
    ensures forall x :: x in a ==> x in b
    decreases |b|
  {
    if |a| > 0 {
      if a[0] == b[0] && IsSubsequence(a[1..], b[1..]) {
        SubsequenceMembers(a[1..], b[1..]);
        assert forall x :: x in a ==> x == a[0] || x in a[1..];
      } else {
        SubsequenceMembers(a, b[1..]);
      }
    }
  }

  /** No two positions of `xs` carry the same `key`. */
  ghost predicate DistinctBy<T, K>(xs: seq<T>, key: T -> K)
  {
    forall i, j :: 0 <= i < |xs| && 0 <= j < |xs| && i != j ==> key(xs[i]) != key(xs[j])
  }

  /** `[x for x in xs if p(x)]`. */
  function Filter<T>(xs: seq<T>, p: T -> bool): (r: seq<T>)
    ensures |r| == Count(xs, p)
  {
    if |xs| == 0 then [] else (if p(xs[0]) then [xs[0]] else []) + Filter(xs[1..], p)
  }

  /** The filtered list holds exactly the elements that satisfy `p`. */
  lemma {:induction false} FilterMembers<T>(xs: seq<T>, p: T -> bool)
    ensures forall i :: 0 <= i < |Filter(xs, p)| ==> Filter(xs, p)[i] in xs && p(Filter(xs, p)[i])
    ensures forall i :: 0 <= i < |xs| && p(xs[i]) ==> xs[i] in Filter(xs, p)
  {
    if |xs| > 0 {
      FilterMembers(xs[1..], p);
      var r := Filter(xs, p);
      var rest := Filter(xs[1..], p);
      var h := if p(xs[0]) then [xs[0]] else [];
      assert r == h + rest;
      forall i | 0 <= i < |r|
        ensures r[i] in xs && p(r[i])
      {
        if i >= |h| {
          assert r[i] == rest[i - |h|];
          assert r[i] in xs[1..];
        }
      }
      forall i | 0 <= i < |xs| && p(xs[i])
        ensures xs[i] in r
      {
        if i > 0 {
          assert xs[i] == xs[1..][i - 1];
          assert xs[i] in rest;
        }
      }
    }
  }

  /** Element `i` of a filtered non-empty list, in terms of the filtered
      tail. */
  lemma FilterIndex<T>(xs: seq<T>, p: T -> bool, i: int)
    requires |xs| > 0 && 0 <= i < |Filter(xs, p)|
    ensures Filter(xs, p)[i] ==
            if !p(xs[0]) then Filter(xs[1..], p)[i]
            else if i == 0 then xs[0] else Filter(xs[1..], p)[i - 1]
  {
  }

  /** Filtering a list with one more element in front. */
  lemma FilterCons<T>(x: T, s: seq<T>, p: T -> bool)
    ensures Filter([x] + s, p) == (if p(x) then [x] else []) + Filter(s, p)
  {
    assert ([x] + s)[0] == x && ([x] + s)[1..] == s;
  }

  /** Filtering distributes over concatenation. */
  lemma {:induction false} FilterAppend<T>(a: seq<T>, b: seq<T>, p: T -> bool)
    ensures Filter(a + b, p) == Filter(a, p) + Filter(b, p)
  {
    if |a| > 0 {
      FilterAppend(a[1..], b, p);
      assert (a + b)[1..] == a[1..] + b;
    } else {
      assert a + b == b;
    }
  }

  /** A filtered list is a subsequence of the list. */
  lemma {:induction false} FilterIsSubsequence<T>(xs: seq<T>, p: T -> bool)
    ensures IsSubsequence(Filter(xs, p), xs)
  {
    if |xs| > 0 {
      FilterIsSubsequence(xs[1..], p);
      var r := Filter(xs, p);
      if p(xs[0]) {
        assert r[0] == xs[0] && r[1..] == Filter(xs[1..], p);
      } else {
        assert r == Filter(xs[1..], p);
        if |r| > 0 {
          assert IsSubsequence(r, xs[1..]);
        }
      }
    }
  }

  /** Distinctness of a list with one more element in front. */
  lemma DistinctByCons<T, K>(y: T, t: seq<T>, key: T -> K)
    ensures DistinctBy([y] + t, key) <==>
              DistinctBy(t, key) && forall j :: 0 <= j < |t| ==> key(t[j]) != key(y)
  {
    var s := [y] + t;
    assert forall j :: 0 <= j < |t| ==> s[j + 1] == t[j];
    if DistinctBy(t, key) && forall j :: 0 <= j < |t| ==> key(t[j]) != key(y) {
      forall i, j | 0 <= i < |s| && 0 <= j < |s| && i != j
        ensures key(s[i]) != key(s[j])
      {
        if i > 0 && j > 0 {
          assert s[i] == t[i - 1] && s[j] == t[j - 1];
        } else if i == 0 {
          assert s[j] == t[j - 1];
        } else {
          assert s[i] == t[i - 1];
        }
      }
    }
    if DistinctBy(s, key) {
      forall i, j | 0 <= i < |t| && 0 <= j < |t| && i != j
        ensures key(t[i]) != key(t[j])
      {
        assert s[i + 1] == t[i] && s[j + 1] == t[j];
      }
      forall j | 0 <= j < |t|
        ensures key(t[j]) != key(y)
      {
        assert s[j + 1] == t[j] && s[0] == y;
      }
    }
  }

  /** Deleting elements keeps distinctness. */
  lemma {:induction false} DistinctBySubsequence<T, K>(a: seq<T>, b: seq<T>, key: T -> K)
    requires IsSubsequence(a, b) && DistinctBy(b, key)
    ensures DistinctBy(a, key)
    decreases |b|
  {
    if |a| > 0 {
      DistinctByCons(b[0], b[1..], key);
      assert [b[0]] + b[1..] == b;
      if a[0] == b[0] && IsSubsequence(a[1..], b[1..]) {
        DistinctBySubsequence(a[1..], b[1..], key);
        SubsequenceMembers(a[1..], b[1..]);
        forall j | 0 <= j < |a[1..]|
          ensures key(a[1..][j]) != key(a[0])
        {
          assert a[1..][j] in b[1..];
        }
        DistinctByCons(a[0], a[1..], key);
        assert [a[0]] + a[1..] == a;
      } else {
        DistinctBySubsequence(a, b[1..], key);
      }
    }
  }
}

=== FILE: spig.dfy ===
/** The SPIG-GMAB monitor (`TedSPIGGMABMonitor`): operator-first searches
    de-duplicated per operator, an additive relevance score capped at 100,
    a priority-ordered category, and the keep-if-score-at-least-10 ranking.

    The monitor reuses the engine's multilingual text extractor unchanged;
    its URL rule differs and is modelled separately. The HTTP search for one
    operator is the parameter `fetch`. */
module Spig {
  import opened Wrappers
  import opened Strings
  import opened Seqs
  import opened Json
  import opened Extract
  import opened Ranking
  import Engine

  // ---------------------------------------------------------------------
  // Fixed tables

  /** `tier1_operators`. */
  const Tier1Operators: seq<string> := [
    "Siemens", "ABB", "General Electric", "Schneider Electric", "Emerson", "Honeywell",
    "Johnson Controls", "Danfoss", "Grundfos", "Wilo", "Alfa Laval", "GEA Group", "Kelvion",
    "SPX Technologies", "Tranter", "BASF", "Bayer", "Evonik", "Covestro", "Lanxess",
    "Wacker Chemie", "Shell", "BP", "Total", "ExxonMobil", "Chevron", "ENI", "Repsol", "SABIC",
    "Dow Chemical", "DuPont", "3M", "Huntsman", "ThyssenKrupp", "ArcelorMittal", "Salzgitter",
    "Voestalpine", "SSAB", "Outokumpu", "Norsk Hydro", "Alcoa", "Rio Tinto", "BHP", "Nestle",
    "Unilever", "Danone", "Carlsberg", "Heineken", "AB InBev", "Coca-Cola", "PepsiCo",
    "Kraft Heinz", "Mondelez", "Roche", "Novartis", "Sanofi", "Pfizer", "Merck",
    "Johnson & Johnson", "GSK", "AstraZeneca", "Boehringer Ingelheim", "Bayer Healthcare",
    "Volkswagen", "BMW", "Mercedes-Benz", "Audi", "Porsche", "Opel", "Ford", "General Motors",
    "Stellantis", "Toyota", "Honda", "Microsoft", "Google", "Amazon", "Meta", "Apple", "IBM",
    "Oracle", "SAP", "Equinix", "Digital Realty", "CoreSite", "Interxion"
  ]

  /** `tier2_operators`. */
  const Tier2Operators: seq<string> := [
    "Bosch", "Continental", "Schaeffler", "ZF Friedrichshafen", "Mahle", "Knorr-Bremse",
    "Rheinmetall", "MTU Aero Engines", "MAN Energy", "Heidelberg Cement", "Holcim",
    "LafargeHolcim", "CRH", "Cemex", "Saint-Gobain", "Owens Corning", "Johns Manville", "UPM",
    "Stora Enso", "Smurfit Kappa", "Mondi", "International Paper", "Sappi", "Sodra",
    "Metsa Group", "Adidas", "PUMA", "Hugo Boss", "Zalando", "H&M", "Inditex", "LVMH",
    "Kering", "Richemont", "Swatch Group", "Charite", "Universitatsklinikum", "Helios",
    "Asklepios", "Rhon-Klinikum", "Fresenius", "B. Braun", "Drager", "Siemens Healthineers",
    "Stadt Munchen", "Stadt Berlin", "Stadt Hamburg", "Stadt Koln", "Stadt Frankfurt",
    "Vienna", "Amsterdam", "Brussels", "Copenhagen"
  ]

  /** `spig_cpv_codes`. */
  const SpigCpvCodes: seq<string> := [
    "42514000", "42514200", "42514300", "42997200", "42997300", "42500000", "42510000",
    "42520000", "42530000", "42900000", "42910000", "42997100", "42411000", "42412000",
    "42413000", "42700000", "42997000", "50000000", "50700000", "50800000", "34000000",
    "42000000"
  ]

  /** The title keyword categories of the score, each with its bonus. */
  const CoolingKeywords: seq<string> :=
    ["cooling system", "cooling tower", "heat exchanger", "chiller", "condenser", "cooling"]
  const AirControlKeywords: seq<string> :=
    ["air pollution control", "emission control", "air treatment", "air cleaning", "air filtration"]
  const WaterKeywords: seq<string> :=
    ["water conservation", "water treatment", "water recycling", "water management", "wastewater"]
  const ServiceKeywords: seq<string> :=
    ["aftermarket", "replacement parts", "spare parts", "maintenance", "retrofit", "upgrade"]
  const IndustrialKeywords: seq<string> :=
    ["power plant", "manufacturing", "industrial facility", "process plant", "chemical plant"]
  const EnvironmentKeywords: seq<string> :=
    ["environmental", "pollution", "emission", "environmental control"]

  const OperatorSearch := "operator_search"

  // ---------------------------------------------------------------------
  // Relevance score

  /** Some needle occurs in `hay`. */
  predicate AnyIn(needles: seq<string>, hay: string)
  {
    exists j :: 0 <= j < |needles| && Contains(hay, needles[j])
  }

  /** What one `for … : if … in …: score += points; break` loop adds. */
  function Bonus(needles: seq<string>, hay: string, points: int): int
  {
    if AnyIn(needles, hay) then points else 0
  }

  /** The fields of `tender_info` the score and the category read. */
  datatype SpigInfo = SpigInfo(
    noticeId: Value, title: Value, buyerName: Value, publicationDate: Value,
    publicationNumber: Value, cpvCodes: string, searchOperator: Value,
    searchType: Value, tedUrl: Value)

  /** `str(title).lower()`. */
  function TitleLower(info: SpigInfo): string
  {
    Lower(PyStr(info.title))
  }

  /** The score before the cap. */
  function RawScore(info: SpigInfo): int
  {
    var t := TitleLower(info);
    Bonus(CoolingKeywords, t, 30)
    + Bonus(AirControlKeywords, t, 25)
    + Bonus(WaterKeywords, t, 25)
    + Bonus(ServiceKeywords, t, 20)
    + Bonus(IndustrialKeywords, t, 15)
    + Bonus(EnvironmentKeywords, t, 12)
    + Bonus(SpigCpvCodes, Lower(info.cpvCodes), 20)
    + (if info.searchType == Str(OperatorSearch) then 15 else 0)
    + (if info.searchOperator.Str? && info.searchOperator.s in Tier1Operators then 10 else 0)
  }

  /** The relevance score: every category adds its bonus once or not at
      all, and the total is capped at 100. */
  function SpigScore(info: SpigInfo): (r: int)
    ensures 0 <= r <= 100
    ensures r == 100 <==> RawScore(info) >= 100
    ensures RawScore(info) < 100 ==> r == RawScore(info)
  {
    var s := RawScore(info);
    if s < 100 then s else 100
  }

  /** One keyword loop of `validate_spig_relevance`: scans the needles in
      order and stops at the first that occurs. */
  method FirstMatchBonus(needles: seq<string>, hay: string, points: int) returns (bonus: int)
    ensures bonus == Bonus(needles, hay, points)
  {
    bonus := 0;
    var i := 0;
    while i < |needles|
      invariant 0 <= i <= |needles|
      invariant bonus == 0
      invariant forall j :: 0 <= j < i ==> !Contains(hay, needles[j])
    {
      if Contains(hay, needles[i]) {
        bonus := points;
        break;
      }
      i := i + 1;
    }
  }

  /** `validate_spig_relevance`: the loops run in the monitor's order, then
      the operator-search and tier-1 bonuses, then `min(score, 100)`. */
  method ValidateSpigRelevance(info: SpigInfo) returns (score: int)
    ensures score == SpigScore(info)
    ensures 0 <= score <= 100
  {
    var t := TitleLower(info);
    score := 0;
    var b := FirstMatchBonus(CoolingKeywords, t, 30);
    score := score + b;
    b := FirstMatchBonus(AirControlKeywords, t, 25);
    score := score + b;
    b := FirstMatchBonus(WaterKeywords, t, 25);
    score := score + b;
    b := FirstMatchBonus(ServiceKeywords, t, 20);
    score := score + b;
    b := FirstMatchBonus(IndustrialKeywords, t, 15);
    score := score + b;
    b := FirstMatchBonus(EnvironmentKeywords, t, 12);
    score := score + b;
    b := FirstMatchBonus(SpigCpvCodes, Lower(info.cpvCodes), 20);
    score := score + b;
    if info.searchType == Str(OperatorSearch) {
      score := score + 15;
    }
    if info.searchOperator.Str? && info.searchOperator.s in Tier1Operators {
      score := score + 10;
    }
    if score > 100 {
      score := 100;
    }
  }

  /** However many cooling keywords a title holds, they add 30 once: a
      cooling-only title of an unknown operator scores exactly 30. */
  lemma CoolingCountedOnce(info: SpigInfo)
    requires AnyIn(CoolingKeywords, TitleLower(info))
    requires !AnyIn(AirControlKeywords, TitleLower(info)) && !AnyIn(WaterKeywords, TitleLower(info))
    requires !AnyIn(ServiceKeywords, TitleLower(info)) && !AnyIn(IndustrialKeywords, TitleLower(info))
    requires !AnyIn(EnvironmentKeywords, TitleLower(info)) && !AnyIn(SpigCpvCodes, Lower(info.cpvCodes))
    requires info.searchType != Str(OperatorSearch) && !info.searchOperator.Str?
    ensures SpigScore(info) == 30
  {
  }

  /** A notice found by searching a tier-1 operator scores at least 25. */
  lemma Tier1OperatorSearchBonus(info: SpigInfo, op: string)
    requires info.searchType == Str(OperatorSearch) && info.searchOperator == Str(op)
    requires op in Tier1Operators
    ensures SpigScore(info) >= 25
  {
  }

  // ---------------------------------------------------------------------
  // Category

  /** The categories of `categorize_spig_type`, in priority order. */
  const CategoryTable: seq<(seq<string>, string)> := [
    (["cooling system", "cooling tower", "heat exchanger", "chiller"], "Cooling Systems"),
    (["air pollution control", "emission control", "air treatment"], "Air Pollution Control"),
    (["water conservation", "water treatment", "water recycling"], "Water Conservation"),
    (["aftermarket", "replacement parts", "spare parts", "maintenance"], "Aftermarket/Maintenance"),
    (["hvac", "air conditioning", "ventilation"], "HVAC Systems"),
    (["retrofit", "upgrade", "modernization"], "Upgrades/Retrofits"),
    (["monitoring", "control system", "automation"], "System Monitoring/Controls"),
    (["environmental", "pollution", "emission"], "Environmental Solutions")
  ]

  const GeneralCategory := "Industrial/General"

  /** The label of the first entry with a term in `t`, else the general one. */
  function FirstCategory(table: seq<(seq<string>, string)>, t: string): (name: string)
    ensures name == GeneralCategory || exists k :: 0 <= k < |table| && name == table[k].1
  {
    if |table| == 0 then GeneralCategory
    else if AnyIn(table[0].0, t) then table[0].1
    else
      var name := FirstCategory(table[1..], t);
      assert forall k :: 0 <= k < |table[1..]| ==> table[1..][k] == table[k + 1];
      name
  }

  /** The labels of a table are distinct and none is the general one. */
  ghost predicate DistinctLabels(table: seq<(seq<string>, string)>)
  {
    && (forall k :: 0 <= k < |table| ==> table[k].1 != GeneralCategory)
    && (forall j, k :: 0 <= j < k < |table| ==> table[j].1 != table[k].1)
  }

  lemma {:induction false} FirstCategoryIff(table: seq<(seq<string>, string)>, t: string, k: int)
    requires DistinctLabels(table)
    requires 0 <= k < |table|
    ensures FirstCategory(table, t) == table[k].1 <==>
              AnyIn(table[k].0, t) && forall j :: 0 <= j < k ==> !AnyIn(table[j].0, t)
  {
    if k > 0 && !AnyIn(table[0].0, t) {
      var tail := table[1..];
      assert forall i :: 0 <= i < |tail| ==> tail[i] == table[i + 1];
      FirstCategoryIff(tail, t, k - 1);
    }
  }

  lemma {:induction false} FirstCategoryGeneral(table: seq<(seq<string>, string)>, t: string)
    requires DistinctLabels(table)
    ensures FirstCategory(table, t) == GeneralCategory <==> forall k :: 0 <= k < |table| ==> !AnyIn(table[k].0, t)
  {
    if |table| > 0 && !AnyIn(table[0].0, t) {
      var tail := table[1..];
      assert forall i :: 0 <= i < |tail| ==> tail[i] == table[i + 1];
      FirstCategoryGeneral(tail, t);
    }
  }

  lemma CategoryTableDistinct()
    ensures DistinctLabels(CategoryTable)
  {
  }

  /** `categorize_spig_type`: one of the nine labels. */
  function CategorizeSpigType(title: Value): (name: string)
    ensures name == GeneralCategory || exists k :: 0 <= k < |CategoryTable| && name == CategoryTable[k].1
  {
    FirstCategory(CategoryTable, Lower(PyStr(title)))
  }

  /** The category is the first one, in priority order, with a term in the
      lower-cased title; the general label exactly when none has. */
  lemma CategorizeIff(title: Value, k: int)
    requires 0 <= k < |CategoryTable|
    ensures CategorizeSpigType(title) == CategoryTable[k].1 <==>
              AnyIn(CategoryTable[k].0, Lower(PyStr(title))) &&
              forall j :: 0 <= j < k ==> !AnyIn(CategoryTable[j].0, Lower(PyStr(title)))
    ensures CategorizeSpigType(title) == GeneralCategory <==>
              forall j :: 0 <= j < |CategoryTable| ==> !AnyIn(CategoryTable[j].0, Lower(PyStr(title)))
  {
    CategoryTableDistinct();
    FirstCategoryIff(CategoryTable, Lower(PyStr(title)), k);
    FirstCategoryGeneral(CategoryTable, Lower(PyStr(title)));
  }

  /** A title mentioning a chiller is a cooling system, whatever else it
      mentions. */
  lemma ChillerIsCooling(title: Value)
    requires Contains(Lower(PyStr(title)), "chiller")
    ensures CategorizeSpigType(title) == "Cooling Systems"
  {
    assert CategoryTable[0].0[3] == "chiller";
    assert AnyIn(CategoryTable[0].0, Lower(PyStr(title)));
  }

  // ---------------------------------------------------------------------
  // Source URL

  /** `generate_ted_url`: a non-empty `links` list yields its first
      element's `'href'` (`''` when absent, and `''` when the element is not
      a map, whose `get` raises); otherwise the publication-number URL;
      otherwise `''`. There is no notice-identifier fallback. */
  function SpigTedUrl(n: Fields): (r: Value)
    ensures |LinkList(n)| > 0 && LinkList(n)[0].Dict? ==> r == HrefOf(LinkList(n)[0])
    ensures |LinkList(n)| > 0 && !LinkList(n)[0].Dict? ==> r == Str("")
    ensures |LinkList(n)| == 0 ==>
              r == (if Truthy(GetOr(n, "publication-number", Null))
                    then Str(PublicationUrl(GetOr(n, "publication-number", Null))) else Str(""))
  {
    var links := LinkList(n);
    if |links| > 0 then
      if links[0].Dict? then HrefOf(links[0]) else Str("")
    else
      var pub := GetOr(n, "publication-number", Str(""));
      if Truthy(pub) then Str(PublicationUrl(pub)) else Str("")
  }

  /** When the first link has an `'href'`, or there are no links, both URL
      rules agree. */
  lemma SpigUrlAgreesWithEngine(n: Fields)
    requires (|LinkList(n)| > 0 && IsHrefLink(LinkList(n)[0])) ||
             (|LinkList(n)| == 0 && Truthy(GetOr(n, "publication-number", Null)))
    ensures SpigTedUrl(n) == GenerateTedUrl(n)
  {
    if |LinkList(n)| > 0 {
      assert FirstHref(LinkList(n)).Some?;
    }
  }

  /** A notice with only an identifier gets a URL from the engine and none
      from the monitor. */
  lemma NoNoticeIdFallback(n: Fields)
    requires |LinkList(n)| == 0 && !Truthy(GetOr(n, "publication-number", Null))
    requires Truthy(NoticeId(n))
    ensures SpigTedUrl(n) == Str("")
    ensures Truthy(GenerateTedUrl(n))
  {
  }

  /** A first link without `'href'` gives the monitor `''`, while the
      engine moves on to the next link. */
  lemma FirstLinkWithoutHref(n: Fields)
    requires |LinkList(n)| >= 2 && LinkList(n)[0] == Dict([]) && IsHrefLink(LinkList(n)[1])
    ensures SpigTedUrl(n) == Str("")
    ensures GenerateTedUrl(n) == HrefOf(LinkList(n)[1])
  {
    assert !IsHrefLink(LinkList(n)[0]);
  }

  // ---------------------------------------------------------------------
  // Operator searches and de-duplication

  /** The search metadata `search_by_operator` writes into each notice. */
  function Tag(n: Fields, op: string): (r: Fields)
    ensures GetOr(r, "search_operator", Null) == Str(op)
    ensures GetOr(r, "search_type", Null) == Str(OperatorSearch)
    ensures NoticeId(r) == NoticeId(n)
  {
    SetField(SetField(n, "search_operator", Str(op)), "search_type", Str(OperatorSearch))
  }

  /** The `unique_notices` map as its entries in insertion order. */
  type NoticeTable = seq<(Value, Fields)>

  function Keys(table: NoticeTable): set<Value>
  {
    set i | 0 <= i < |table| :: table[i].0
  }

  /** `list(unique_notices.values())`. */
  function Values(table: NoticeTable): (vs: seq<Fields>)
    ensures |vs| == |table|
    ensures forall i :: 0 <= i < |table| ==> vs[i] == table[i].1
  {
    seq(|table|, i requires 0 <= i < |table| => table[i].1)
  }

  /** The loop that fills `unique_notices`: a notice is stored under its
      identifier when that is truthy and not yet a key. */
  function FillUnique(table: NoticeTable, notices: seq<Fields>): NoticeTable
    decreases |notices|
  {
    if |notices| == 0 then table
    else
      var id := NoticeId(notices[0]);
      FillUnique(if Truthy(id) && id !in Keys(table) then table + [(id, notices[0])] else table,
                 notices[1..])
  }

  lemma {:induction false} FillUniqueIsDedup(table: NoticeTable, notices: seq<Fields>)
    ensures Values(FillUnique(table, notices)) ==
            Values(table) + Engine.DedupFrom(notices, NoticeId, Keys(table))
    decreases |notices|
  {
    if |notices| > 0 {
      var id := NoticeId(notices[0]);
      if Truthy(id) && id !in Keys(table) {
        var table' := table + [(id, notices[0])];
        assert Keys(table') == Keys(table) + {id} by {
          assert table'[|table|].0 == id;
          assert forall i :: 0 <= i < |table| ==> table'[i] == table[i];
        }
        assert Values(table') == Values(table) + [notices[0]];
        FillUniqueIsDedup(table', notices[1..]);
      } else {
        FillUniqueIsDedup(table, notices[1..]);
      }
    }
  }

  /** The de-duplication of `search_by_operator` keeps the same notices, in
      the same order, as the engine's `_remove_duplicates`. */
  function SpigDedup(notices: seq<Fields>): (r: seq<Fields>)
    ensures r == Engine.RemoveDuplicates(notices)
  {
    FillUniqueIsDedup([], notices);
    assert Keys([]) == {};
    assert Values([]) + Engine.DedupFrom(notices, NoticeId, {}) == Engine.DedupFrom(notices, NoticeId, {});
    Values(FillUnique([], notices))
  }

  /** Every notice of `fetch(op)`, tagged for the operator. */
  function Tagged(op: string, fetch: string -> seq<Fields>): (tagged: seq<Fields>)
    ensures |tagged| == |fetch(op)|
    ensures forall i :: 0 <= i < |tagged| ==> tagged[i] == Tag(fetch(op)[i], op)
  {
    seq(|fetch(op)|, i requires 0 <= i < |fetch(op)| => Tag(fetch(op)[i], op))
  }

  /** The de-duplicated tagged notices carry the operator's tags. */
  lemma DedupTaggedTags(op: string, fetch: string -> seq<Fields>)
    ensures var r := Engine.RemoveDuplicates(Tagged(op, fetch));
            forall i :: 0 <= i < |r| ==>
              GetOr(r[i], "search_operator", Null) == Str(op) &&
              GetOr(r[i], "search_type", Null) == Str(OperatorSearch)
  {
    var tagged := Tagged(op, fetch);
    var r := Engine.RemoveDuplicates(tagged);
    SubsequenceMembers(r, tagged);
    forall i | 0 <= i < |r|
      ensures GetOr(r[i], "search_operator", Null) == Str(op) &&
              GetOr(r[i], "search_type", Null) == Str(OperatorSearch)
    {
      assert r[i] in tagged;
      var k :| 0 <= k < |tagged| && tagged[k] == r[i];
      assert r[i] == Tag(fetch(op)[k], op);
    }
  }

  /** De-duplicating the tagged notices keeps the first notice of every
      truthy identifier `fetch` returned. */
  lemma DedupTaggedIds(op: string, fetch: string -> seq<Fields>)
    ensures Engine.IdsOf(Engine.RemoveDuplicates(Tagged(op, fetch)), NoticeId) == Engine.TruthyIds(fetch(op), NoticeId)
    ensures Engine.FirstsOnly(Engine.RemoveDuplicates(Tagged(op, fetch)), Tagged(op, fetch), NoticeId, {})
  {
    Engine.RemoveDuplicatesKeepsFirst(Tagged(op, fetch));
    Engine.TruthyIdsSameIds(Tagged(op, fetch), fetch(op), NoticeId);
  }

  /** `search_by_operator(op)`: the notices `fetch` returns for the
      operator, tagged with the search metadata, de-duplicated. */
  function SearchByOperator(op: string, fetch: string -> seq<Fields>): (r: seq<Fields>)
    ensures forall i :: 0 <= i < |r| ==>
              GetOr(r[i], "search_operator", Null) == Str(op) &&
              GetOr(r[i], "search_type", Null) == Str(OperatorSearch) &&
              Truthy(NoticeId(r[i]))
    ensures DistinctBy(r, NoticeId)
    ensures IsSubsequence(r, Tagged(op, fetch))
    ensures Engine.IdsOf(r, NoticeId) == Engine.TruthyIds(fetch(op), NoticeId)
    ensures Engine.FirstsOnly(r, Tagged(op, fetch), NoticeId, {})
  {
    DedupTaggedTags(op, fetch);
    DedupTaggedIds(op, fetch);
    SpigDedup(Tagged(op, fetch))
  }

  /** `search_by_operator_tier`: the operators' results one after another,
      with no de-duplication across operators. */
  function SearchByOperatorTier(ops: seq<string>, fetch: string -> seq<Fields>): (r: seq<Fields>)
    ensures r == Flatten(Map(ops, (op: string) => SearchByOperator(op, fetch)))
    ensures forall i :: 0 <= i < |r| ==>
              Truthy(NoticeId(r[i])) &&
              GetOr(r[i], "search_type", Null) == Str(OperatorSearch) &&
              exists k :: 0 <= k < |ops| && GetOr(r[i], "search_operator", Null) == Str(ops[k])
  {
    if |ops| == 0 then []
    else
      var head := SearchByOperator(ops[0], fetch);
      var rest := SearchByOperatorTier(ops[1..], fetch);
      assert Map(ops, (op: string) => SearchByOperator(op, fetch))[1..] ==
             Map(ops[1..], (op: string) => SearchByOperator(op, fetch));
      var r := head + rest;
      forall i | |head| <= i < |r|
        ensures exists k :: 0 <= k < |ops| && GetOr(r[i], "search_operator", Null) == Str(ops[k])
      {
        assert r[i] == rest[i - |head|];
        var k :| 0 <= k < |ops[1..]| && GetOr(rest[i - |head|], "search_operator", Null) == Str(ops[1..][k]);
        assert ops[1..][k] == ops[k + 1];
      }
      r
  }

  lemma SingleNoticeSearch(op: string, fetch: string -> seq<Fields>, n: Fields)
    requires fetch(op) == [n] && Truthy(NoticeId(n))
    ensures SearchByOperator(op, fetch) == [Tag(n, op)]
  {
    var tagged := Tagged(op, fetch);
    assert tagged == [Tag(n, op)];
    assert tagged[1..] == [];
  }

  /** The same notice found for two operators is listed twice. */
  lemma CrossOperatorDuplicate(n: Fields, a: string, b: string, fetch: string -> seq<Fields>)
    requires Truthy(NoticeId(n))
    requires fetch(a) == [n] && fetch(b) == [n]
    ensures SearchByOperatorTier([a, b], fetch) == [Tag(n, a), Tag(n, b)]
    ensures NoticeId(SearchByOperatorTier([a, b], fetch)[0]) == NoticeId(SearchByOperatorTier([a, b], fetch)[1])
  {
    SingleNoticeSearch(a, fetch, n);
    SingleNoticeSearch(b, fetch, n);
    TierStep(a, [b], fetch);
    TierStep(b, [], fetch);
    assert [a] + [b] == [a, b] && [b] + [] == [b];
  }

  /** The tier search over one more operator in front. */
  lemma TierStep(op: string, ops: seq<string>, fetch: string -> seq<Fields>)
    ensures SearchByOperatorTier([op] + ops, fetch) == SearchByOperator(op, fetch) + SearchByOperatorTier(ops, fetch)
  {
    assert ([op] + ops)[0] == op && ([op] + ops)[1..] == ops;
  }

  // ---------------------------------------------------------------------
  // Processing and ranking

  /** The `tender_info` of one raw notice. */
  function InfoOf(n: Fields): SpigInfo
  {
    SpigInfo(
      NoticeId(n), SafeGetText(n, "notice-title"), SafeGetText(n, "buyer-name"),
      GetOr(n, "publication-date", Str("")), GetOr(n, "publication-number", Str("")),
      PyStr(GetOr(n, "classification-cpv", Str(""))),
      GetOr(n, "search_operator", Str("")), GetOr(n, "search_type", Str("")),
      SpigTedUrl(n))
  }

  /** A processed notice with its score and category. */
  datatype SpigRecord = SpigRecord(info: SpigInfo, score: int, category: string)

  function RecordOf(n: Fields): (t: SpigRecord)
    ensures 0 <= t.score <= 100
    ensures t.info == InfoOf(n)
    ensures t.score == SpigScore(InfoOf(n))
    ensures t.category == CategorizeSpigType(InfoOf(n).title)
  {
    var info := InfoOf(n);
    SpigRecord(info, SpigScore(info), CategorizeSpigType(info.title))
  }

  function ScoreOf(t: SpigRecord): int
  {
    t.score
  }

  predicate Relevant(t: SpigRecord)
  {
    t.score >= 10
  }

  /** `process_and_score_results`: the records scoring at least 10, ranked
      by non-increasing score, ties in input order. */
  function SpigProcessAndScore(raw: seq<Fields>): (r: seq<SpigRecord>)
    ensures forall i :: 0 <= i < |r| ==> 10 <= r[i].score <= 100
    ensures SortedDesc(r, ScoreOf)
    ensures forall i :: 0 <= i < |r| ==> exists k :: 0 <= k < |raw| && RecordOf(raw[k]) == r[i]
    ensures forall k :: 0 <= k < |raw| && RecordOf(raw[k]).score >= 10 ==> RecordOf(raw[k]) in r
    ensures multiset(r) == multiset(Filter(Map(raw, RecordOf), Relevant))
    ensures forall s :: Filter(r, HasKey(ScoreOf, s)) == Filter(Filter(Map(raw, RecordOf), Relevant), HasKey(ScoreOf, s))
  {
    MapKeepSortedPreserves(raw, RecordOf, Relevant, ScoreOf, (t: SpigRecord) => t.score <= 100);
    MapKeepSorted(raw, RecordOf, Relevant, ScoreOf)
  }

  /** The rank bands of the summary. */
  predicate High(t: SpigRecord) { t.score >= 50 }
  predicate Medium(t: SpigRecord) { 30 <= t.score < 50 }
  predicate Low(t: SpigRecord) { 10 <= t.score < 30 }

  /** On records scoring at least 10, every record is in exactly one band,
      so the three band sizes add up to the number of records. */
  lemma {:induction false} BandsPartition(r: seq<SpigRecord>)
    requires forall i :: 0 <= i < |r| ==> r[i].score >= 10
    ensures Count(r, High) + Count(r, Medium) + Count(r, Low) == |r|
  {
    if |r| > 0 {
      BandsPartition(r[1..]);
    }
  }
}

=== FILE: strings.dfy ===
/** The Python string operations the engine relies on, over ASCII:
    `str.lower()`, the substring test `needle in hay`, `str.startswith`,
    `sep.join(parts)`, decimal formatting of integers and `int()` of a
    digit string. */
module Strings {

  /** `str.lower()` on one character; only ASCII letters are folded. */
  function LowerChar(c: char): char
  {
    if 'A' <= c <= 'Z' then (c as int + 32) as char else c
  }

  function Lower(s: string): string
  {
    seq(|s|, i requires 0 <= i < |s| => LowerChar(s[i]))
  }

  /** `s.startswith(p)`. */
  predicate StartsWith(s: string, p: string)
  {
    |p| <= |s| && s[..|p|] == p
  }

  /** `needle` occurs in `hay` starting at position `i`. */
  ghost predicate OccursAt(hay: string, needle: string, i: int)
  {
    0 <= i && i + |needle| <= |hay| && hay[i..i + |needle|] == needle
  }

  /** Python's `needle in hay`: a left-to-right scan for a start position.
      The empty string occurs in every string. */
  predicate Contains(hay: string, needle: string)
    decreases |hay|
  {
    if |needle| > |hay| then false
    else if hay[..|needle|] == needle then true
    else Contains(hay[1..], needle)
  }

  /** The scan finds `needle` exactly when it occurs at some position. */
  lemma {:induction false} ContainsIff(hay: string, needle: string)
    ensures Contains(hay, needle) <==> exists i :: OccursAt(hay, needle, i)
    decreases |hay|
  {
    if |needle| > |hay| {
    } else if hay[..|needle|] == needle {
      assert OccursAt(hay, needle, 0);
    } else {
      assert |hay| > 0;
      ContainsIff(hay[1..], needle);
      if Contains(hay[1..], needle) {
        var i :| OccursAt(hay[1..], needle, i);
        assert hay[1..][i..i + |needle|] == hay[i + 1..i + 1 + |needle|];
        assert OccursAt(hay, needle, i + 1);
      }
      if exists i :: OccursAt(hay, needle, i) {
        var i :| OccursAt(hay, needle, i);
        assert i != 0;
        assert hay[1..][i - 1..i - 1 + |needle|] == hay[i..i + |needle|];
        assert OccursAt(hay[1..], needle, i - 1);
      }
    }
  }

  lemma OccursInLeft(a: string, b: string, needle: string, i: int)
    requires OccursAt(a, needle, i)
    ensures OccursAt(a + b, needle, i)
  {
    assert (a + b)[i..i + |needle|] == a[i..i + |needle|];
  }

  lemma OccursInRight(a: string, b: string, needle: string, i: int)
    requires OccursAt(b, needle, i)
    ensures OccursAt(a + b, needle, |a| + i)
  {
    assert (a + b)[|a| + i..|a| + i + |needle|] == b[i..i + |needle|];
  }

  /** `sep.join(parts)`. */
  function Join(sep: string, parts: seq<string>): string
  {
    if |parts| == 0 then ""
    else if |parts| == 1 then parts[0]
    else parts[0] + sep + Join(sep, parts[1..])
  }

  /** Every part of a join occurs in the joined string. */
  lemma {:induction false} JoinContainsPart(sep: string, parts: seq<string>, k: int)
    requires 0 <= k < |parts|
    ensures Contains(Join(sep, parts), parts[k])
  {
    var j := Join(sep, parts);
    if |parts| == 1 {
      assert j[..|parts[0]|] == parts[0];
    } else if k == 0 {
      assert OccursAt(parts[0], parts[0], 0);
      OccursInLeft(parts[0], sep + Join(sep, parts[1..]), parts[0], 0);
      assert parts[0] + sep + Join(sep, parts[1..]) == parts[0] + (sep + Join(sep, parts[1..]));
      ContainsIff(j, parts[0]);
    } else {
      JoinContainsPart(sep, parts[1..], k - 1);
      var rest := Join(sep, parts[1..]);
      ContainsIff(rest, parts[k]);
      var i :| OccursAt(rest, parts[k], i);
      OccursInRight(parts[0] + sep, rest, parts[k], i);
      ContainsIff(j, parts[k]);
    }
  }

  predicate IsDigit(c: char)
  {
    '0' <= c <= '9'
  }

  function DigitChar(d: nat): (c: char)
    requires d < 10
    ensures IsDigit(c)
  {
    ('0' as int + d) as char
  }

  /** Python's `str(n)` for a non-negative integer. */
  function NatToString(n: nat): (r: string)
    ensures |r| > 0
    ensures forall i :: 0 <= i < |r| ==> IsDigit(r[i])
  {
    if n < 10 then [DigitChar(n)] else NatToString(n / 10) + [DigitChar(n % 10)]
  }

  /** Python's `str(i)` for any integer (a leading `-` when negative). */
  function IntToString(i: int): string
  {
    if i < 0 then "-" + NatToString(-i) else NatToString(i)
  }

  /** Python's `int(s)` for a string of ASCII digits; `0` for `""`. */
  function ParseDigits(s: string): nat
    requires forall i :: 0 <= i < |s| ==> IsDigit(s[i])
  {
    if |s| == 0 then 0
    else
      assert IsDigit(s[|s| - 1]);
      ParseDigits(s[..|s| - 1]) * 10 + (s[|s| - 1] as int - '0' as int)
  }

  /** Formatting a natural number and reading it back is the identity. */
  lemma {:induction false} ParseNatToString(n: nat)
    ensures ParseDigits(NatToString(n)) == n
  {
    if n >= 10 {
      var s := NatToString(n);
      assert s[..|s| - 1] == NatToString(n / 10);
      ParseNatToString(n / 10);
    }
  }

  /** The ASCII digits of `s`, in order (`''.join(re.findall(r'\d', s))`). */
  function DigitsOf(s: string): (r: string)
    ensures forall i :: 0 <= i < |r| ==> IsDigit(r[i])
    ensures |r| <= |s|
  {
    if |s| == 0 then ""
    else (if IsDigit(s[0]) then [s[0]] else "") + DigitsOf(s[1..])
  }
}

=== FILE: templates.dfy ===
/** The industry template catalog (`IndustryTemplates` in
    ted_search_engine.py): a fixed, ordered table from a template name to a
    default keyword list and CPV code list. */
module Templates {
  import opened Wrappers

  datatype Template = Template(keywords: seq<string>, cpvCodes: seq<string>)

  // The templates of `IndustryTemplates.TEMPLATES`.
  const ItSoftware: Template := Template(
      ["software development", "IT services", "system integration",
       "cloud services", "database", "web development", "mobile app",
       "cybersecurity", "data analytics", "artificial intelligence",
       "machine learning", "digital transformation", "ERP system"],
      ["72000000", "72100000", "72200000", "72300000", "72400000", "72500000", "72600000"])

  const Construction: Template := Template(
      ["construction", "building", "renovation", "infrastructure",
       "road construction", "bridge", "civil engineering", "architecture",
       "project management", "facility management", "maintenance",
       "electrical installation", "plumbing", "HVAC installation"],
      ["45000000", "45100000", "45200000", "45300000", "45400000", "45500000"])

  const Healthcare: Template := Template(
      ["medical equipment", "healthcare services", "hospital", "medical supplies",
       "pharmaceutical", "medical devices", "laboratory equipment",
       "diagnostic equipment", "patient care", "medical software",
       "telemedicine", "health information system"],
      ["33000000", "33100000", "33600000", "85100000", "85110000", "85200000"])

  const Consulting: Template := Template(
      ["consulting services", "management consulting", "business consulting",
       "strategic planning", "process improvement", "organizational development",
       "change management", "project management", "advisory services",
       "feasibility study", "market research", "business analysis"],
      ["73000000", "73100000", "73200000", "79000000", "79400000", "79500000"])

  const Engineering: Template := Template(
      ["engineering services", "technical consulting", "design services",
       "mechanical engineering", "electrical engineering", "civil engineering",
       "environmental engineering", "project engineering", "system design",
       "technical documentation", "feasibility study", "technical support"],
      ["71000000", "71200000", "71300000", "71400000", "71500000", "71600000"])

  const Environmental: Template := Template(
      ["environmental services", "waste management", "water treatment",
       "environmental consulting", "pollution control", "renewable energy",
       "sustainability", "environmental monitoring", "remediation",
       "recycling", "air quality", "environmental impact assessment"],
      ["90000000", "90100000", "90200000", "90300000", "90700000", "90900000"])

  const Education: Template := Template(
      ["educational services", "training", "e-learning", "curriculum development",
       "educational technology", "learning management system", "assessment",
       "educational consulting", "teacher training", "educational materials",
       "distance learning", "educational software"],
      ["80000000", "80100000", "80200000", "80300000", "80400000", "80500000"])

  const Transportation: Template := Template(
      ["transportation services", "logistics", "fleet management",
       "public transport", "vehicle maintenance", "traffic management",
       "transport planning", "mobility services", "freight transport",
       "passenger transport", "transport infrastructure"],
      ["60000000", "60100000", "60200000", "60400000", "60500000", "34000000"])

  const Energy: Template := Template(
      ["energy services", "renewable energy", "solar power", "wind energy",
       "energy efficiency", "power generation", "electricity", "gas supply",
       "energy management", "smart grid", "battery systems", "energy storage"],
      ["09000000", "65000000", "65100000", "65200000", "65300000", "71310000"])

  /** `IndustryTemplates.TEMPLATES`, in declaration order. */
  const Catalog: seq<(string, Template)> := [
    ("it-software", ItSoftware),
    ("construction", Construction),
    ("healthcare", Healthcare),
    ("consulting", Consulting),
    ("engineering", Engineering),
    ("environmental", Environmental),
    ("education", Education),
    ("transportation", Transportation),
    ("energy", Energy)
  ]

  /** `TEMPLATES.get(name)`: the first entry with that name. */
  function Lookup(table: seq<(string, Template)>, name: string): (r: Option<Template>)
    ensures r.None? <==> forall i :: 0 <= i < |table| ==> table[i].0 != name
    ensures r.Some? ==> (name, r.value) in table
  {
    if |table| == 0 then None
    else if table[0].0 == name then Some(table[0].1)
    else
      var r := Lookup(table[1..], name);
      assert forall i :: 1 <= i < |table| ==> table[i] == table[1..][i - 1];
      r
  }

  /** No name appears twice in the table. */
  ghost predicate DistinctNames(table: seq<(string, Template)>)
  {
    forall i, j :: 0 <= i < j < |table| ==> table[i].0 != table[j].0
  }

  lemma CatalogNamesDistinct()
    ensures DistinctNames(Catalog)
  {
  }

  /** Lookup finds the first entry carrying the name; in a table without
      repeated names, that is the one entry carrying it. */
  lemma {:induction false} LookupAt(table: seq<(string, Template)>, name: string)
    ensures forall i :: 0 <= i < |table| && table[i].0 == name && (forall j :: 0 <= j < i ==> table[j].0 != name) ==>
              Lookup(table, name) == Some(table[i].1)
    ensures DistinctNames(table) ==>
              forall i :: 0 <= i < |table| && table[i].0 == name ==> Lookup(table, name) == Some(table[i].1)
  {
    if |table| > 0 {
      LookupAt(table[1..], name);
      forall i | 0 <= i < |table| && table[i].0 == name && (forall j :: 0 <= j < i ==> table[j].0 != name)
        ensures Lookup(table, name) == Some(table[i].1)
      {
        if i > 0 {
          assert table[1..][i - 1] == table[i];
          assert forall j :: 0 <= j < i - 1 ==> table[1..][j] == table[j + 1];
        }
      }
    }
  }

  /** The names of a table, in order. */
  function Names(table: seq<(string, Template)>): (names: seq<string>)
    ensures |names| == |table|
    ensures forall i :: 0 <= i < |names| ==> names[i] == table[i].0
  {
    seq(|table|, i requires 0 <= i < |table| => table[i].0)
  }

  /** A name is found exactly when it is one of the table's names. */
  lemma LookupNames(table: seq<(string, Template)>, name: string)
    ensures Lookup(table, name).Some? <==> name in Names(table)
  {
    var names := Names(table);
    if name in names {
      var i :| 0 <= i < |names| && names[i] == name;
      assert table[i].0 == name;
    }
  }

  /** `IndustryTemplates.list_templates()`. */
  function ListTemplates(): (names: seq<string>)
    ensures |names| == |Catalog|
    ensures forall i :: 0 <= i < |names| ==> names[i] == Catalog[i].0
  {
    Names(Catalog)
  }

  /** Every template has keywords and CPV codes, and every CPV code has
      the eight digits of a CPV main code. */
  predicate WellFormed(t: Template)
  {
    && |t.keywords| > 0
    && |t.cpvCodes| > 0
    && forall i :: 0 <= i < |t.cpvCodes| ==> |t.cpvCodes[i]| == 8
  }

  ghost predicate TableWellFormed(table: seq<(string, Template)>)
  {
    forall i :: 0 <= i < |table| ==> WellFormed(table[i].1)
  }

  lemma CatalogWellFormed()
    ensures TableWellFormed(Catalog)
  {
    assert WellFormed(ItSoftware);
    assert WellFormed(Construction);
    assert WellFormed(Healthcare);
    assert WellFormed(Consulting);
    assert WellFormed(Engineering);
    assert WellFormed(Environmental);
    assert WellFormed(Education);
    assert WellFormed(Transportation);
    assert WellFormed(Energy);
  }

  /** The template found under `name` in a well-formed table is well
      formed. */
  lemma LookupWellFormed(table: seq<(string, Template)>, name: string)
    requires TableWellFormed(table)
    ensures Lookup(table, name).Some? ==> WellFormed(Lookup(table, name).value)
  {
    var r := Lookup(table, name);
    if r.Some? {
      var i :| 0 <= i < |table| && table[i] == (name, r.value);
    }
  }

  function KeywordsIn(table: seq<(string, Template)>, name: string): (r: seq<string>)
    requires TableWellFormed(table)
    ensures name !in Names(table) ==> r == []
    ensures name in Names(table) ==> |r| > 0
    ensures DistinctNames(table) ==>
              forall i :: 0 <= i < |table| && table[i].0 == name ==> r == table[i].1.keywords
  {
    LookupAt(table, name);
    LookupNames(table, name);
    LookupWellFormed(table, name);
    match Lookup(table, name)
    case Some(t) => t.keywords
    case None => []
  }

  function CpvCodesIn(table: seq<(string, Template)>, name: string): (r: seq<string>)
    requires TableWellFormed(table)
    ensures name !in Names(table) ==> r == []
    ensures name in Names(table) ==> |r| > 0
    ensures forall i :: 0 <= i < |r| ==> |r[i]| == 8
    ensures DistinctNames(table) ==>
              forall i :: 0 <= i < |table| && table[i].0 == name ==> r == table[i].1.cpvCodes
  {
    LookupAt(table, name);
    LookupNames(table, name);
    LookupWellFormed(table, name);
    match Lookup(table, name)
    case Some(t) => t.cpvCodes
    case None => []
  }

  /** `IndustryTemplates.get_keywords(name)`: the template's keywords, or
      the empty list for a name not in the catalog. */
  function GetKeywords(name: string): (r: seq<string>)
    ensures name !in ListTemplates() ==> r == []
    ensures name in ListTemplates() ==> |r| > 0
    ensures forall i :: 0 <= i < |Catalog| && Catalog[i].0 == name ==> r == Catalog[i].1.keywords
  {
    CatalogWellFormed();
    CatalogNamesDistinct();
    KeywordsIn(Catalog, name)
  }

  /** `IndustryTemplates.get_cpv_codes(name)`: the template's CPV codes, or
      the empty list for a name not in the catalog. */
  function GetCpvCodes(name: string): (r: seq<string>)
    ensures name !in ListTemplates() ==> r == []
    ensures name in ListTemplates() ==> |r| > 0
    ensures forall i :: 0 <= i < |r| ==> |r[i]| == 8
    ensures forall i :: 0 <= i < |Catalog| && Catalog[i].0 == name ==> r == Catalog[i].1.cpvCodes
  {
    CatalogWellFormed();
    CatalogNamesDistinct();
    CpvCodesIn(Catalog, name)
  }
}

=== FILE: wrappers.dfy ===
/** The optional-value datatype used wherever the engine or the monitor falls
    back to a
    default (`dict.get`) or swallows an exception. */
module Wrappers {

  datatype Option<+T> = None | Some(value: T) {

    /** Returns the wrapped value, or `default` when there is none. */
    function GetOr(default: T): T {
      match this
      case Some(v) => v
      case None => default
    }
  }
}
